=== FILE: README.md ===
# A Dafny model of the COMP7940 Telegram bot's core

This project models the core of a Python Telegram bot. The bot keeps user interest profiles in Firestore. It asks a text-completion service for event recommendations and peer matches, and it reads the free-text answers back into records. Every command passes through a rate-limit and audit gate.

The model is functional. Strings are `seq<char>`. The four Firestore collections are an in-memory `Store` (users, past_events, request_logs, rate_limits). The clock readings (`now` for the gate and the counters, a `Clock` giving one reading per saved event) and the completion service (`complete: Prompt -> Reply`) are parameters.

The modules follow the program's structure:

- `Model` (model.py): `UserProfile`, `Event` and the `Command` names.
- `Repository` (repository.py): saving and reading profiles, the event history, counters, the audit log and the rate check. The rate check takes a `RatePolicy`, so the policy as written and the intended policy can both be stated; see Findings.
- `Completion`: what goes to the completion service and what comes back. A `Reply` is the answer text, or the exception the call raised.
- `EventService` (service/event.py): `_parse_events`, plus `recommend_events` and `recommend_more_events` with their guard, history read and save.
- `UserService` (service/user.py): `register_user`, `get_user`, `add_interest` and the match-answer parser of `find_matches`.
- `Handlers` (handlers.py): the gate formed by `before_request` and `after_request`, and every command handler. The gate returns a trace of steps: the check, the handler run, messages sent, audit entries. It also returns the new store and the exception that escaped, if any.
- `Text`, `Numbers`, `Seqs`, `Wrappers`: the Python built-ins the code relies on, stated with their Python meaning. These are `strip`, `split(sep)`, `split()`, `join`, `in`, `startswith`, `endswith`, slices, `isdigit`, `int()` and `str()`, plus list comprehensions over a filter.

In the code, `int()` raises inside the parsing loop, and the surrounding `except` returns `[]` for the whole answer. `UserService.AbortEmptiesAll` states that behaviour.

## Model

| member | source | states |
|---|---|---|
| Model.CommandValue | src/pybot/model.py:18-26 | every command stands for a non-empty lower-case name |
| Model.CommandValuesDistinct | src/pybot/model.py:18-26 | two commands have the same value exactly when they are the same command |
| Repository.SaveUser | src/pybot/repository.py:35-36 | the profile is filed under its username and replaces any earlier one; other users and the other collections are unchanged |
| Repository.GetUser | src/pybot/repository.py:38-40 | a profile comes back exactly when a document exists for the name, and it is that document |
| Repository.SaveEvents | src/pybot/repository.py:42-54 | exactly one record per event is appended, in order, each tagged with the username and its own clock reading; nothing else changes |
| Repository.OwnedBy | src/pybot/repository.py:58 | the filter on 'user' keeps exactly the user's records: each kept record is the user's, and each of the user's records is kept |
| Repository.SortNewest | src/pybot/repository.py:59 | the descending order on timestamp: the result is sorted newest first and is a permutation of the input |
| Repository.SortRising | src/pybot/repository.py:59 | records whose timestamps rise strictly come out of the descending order back to front |
| Repository.Take | src/pybot/repository.py:60 | `.limit(n)` returns the first n documents, or all of them when there are fewer |
| Repository.PastRecords | src/pybot/repository.py:56-62 | the history query returns at most `limit` records, newest first, all of them the user's and all from the store, each at most as often as it is stored |
| Repository.PastRecordsAreNewest | src/pybot/repository.py:56-62 | the query keeps the newest: with fewer than `limit` results it returns every record of the user, and a left-out record is never newer than the last one returned |
| Repository.GetPastEvents | src/pybot/repository.py:56-63 | `get_past_events` returns at most `limit` events |
| Repository.PastRecordsAfterSave | src/pybot/repository.py:42-62 | when the save's readings move strictly forward from a time later than the user's earlier records, the history query reads the new batch first, last saved first, then the older history newest first |
| Repository.SaveThenReadHistory | src/pybot/repository.py:42-63 | under the same readings, saving a batch and reading that many past events back gives the batch reversed, field for field |
| Repository.HistoryAfterFirstSave | src/pybot/repository.py:42-63 | for a user with no history, one batch saved with strictly rising readings reads back as its last `limit` events, last saved first |
| Repository.FirstSaveKeepsBatch | src/pybot/repository.py:42-62 | whatever the readings, equal ones included, a first batch of at most `limit` events comes back as the same records in some order |
| Repository.Incr | src/pybot/repository.py:65-70 | `incr` returns the old count plus one (one for a new key) and stamps the key's counter with that count and the time; other keys are untouched |
| Repository.LogRequest | src/pybot/repository.py:99-107 | `log_request` appends exactly one document with fields timestamp, username, command and success, and changes nothing else |
| Repository.RecentLogs | src/pybot/repository.py:86-88 | the rate query keeps only documents whose user field holds the username and whose timestamp is within the last minute |
| Repository.RecentLogsAppend | src/pybot/repository.py:86-88 | adding a document adds it to the query's result exactly when the query's filters match it |
| Repository.RecentCount | src/pybot/repository.py:86-94 | the number streamed back is the number of matching documents, cut at the `.limit` cap when there is one |
| Repository.CheckRateLimit | src/pybot/repository.py:82-97 | without a cap the check passes exactly when fewer than `ceiling` documents match; with a cap below the ceiling it always passes; with a cap at or above it, exactly when fewer than `ceiling` match |
| Repository.SourceCheckAlwaysAllows | src/pybot/repository.py:86-97 | with `.limit(10)` and the ceiling of 30, `check_rate_limit` as written never refuses |
| Repository.LoggedRequestsNeverCounted | src/pybot/repository.py:86-107 | the query filters on 'user' but `log_request` writes 'username', so logging a request never changes the count |
| Repository.IntendedCountsLoggedRequests | src/pybot/repository.py:82-107 | under the intended policy, each request logged within the last minute adds exactly one to the count |
| Repository.WindowIsInclusive | src/pybot/repository.py:83-88 | an entry stamped exactly one minute ago counts; one a microsecond older does not |
| Repository.IntendedBoundary | src/pybot/repository.py:94-97 | under the intended policy, 29 recent requests still pass, and logging the 30th makes the next check refuse |
| Completion.DescriptionText | src/pybot/service/event.py:21 | the text sent for a description is never empty: an empty description is sent as "No additional context provided.", and a non-empty one is sent as is |
| Text.Strip | src/pybot/service/event.py:68 | `strip()` returns a string with no whitespace at either end; it leaves such strings alone and returns '' exactly for all-whitespace input |
| Text.Split | src/pybot/service/event.py:70 | `split(sep)` returns at least one piece, and no piece contains the separator |
| Text.SplitJoin | src/pybot/service/event.py:70 | joining the pieces of a split with the same separator gives back the string |
| Text.JoinSplit | src/pybot/service/event.py:68 | splitting on a one-character separator undoes a join of pieces that do not contain it |
| Text.Words | src/pybot/handlers.py:29 | `split()` returns non-empty runs of non-whitespace |
| Text.WordsJoin | src/pybot/handlers.py:29 | `split()` gives back words that were joined by single spaces |
| Numbers.ParseInt | src/pybot/service/user.py:66 | `int()` yields a value exactly when the stripped text is an optional sign followed by one or more digits, and an unsigned run of digits reads as its decimal value |
| Numbers.ParseIntStrayCharacter | src/pybot/service/user.py:66 | a character other than a digit anywhere after the optional sign makes `int()` raise |
| Numbers.ExampleWordIsNotInt | src/pybot/service/user.py:66 | `int("two")` raises |
| Numbers.ParseIntRoundTrip | src/pybot/service/user.py:66 | `int(str(n)) == n` for every integer |
| EventService.ParseEventLine | src/pybot/service/event.py:69-82 | a line yields an event exactly when its very first character is a digit and splitting it on " - " gives three parts; all three fields of the event are stripped |
| EventService.IndentedLineDropped | src/pybot/service/event.py:69 | a line that starts with whitespace is never read, even when a digit follows |
| EventService.ParseEvents | src/pybot/service/event.py:62-87 | an answer containing "Error" gives no events; otherwise there are never more events than lines |
| EventService.ParseEventLinesAppend | src/pybot/service/event.py:68-82 | lines are read one at a time: the events of two blocks of lines are those of the first followed by those of the second |
| EventService.DroppedLineIsInvisible | src/pybot/service/event.py:70-72 | a line without exactly three " - " parts changes nothing about the events read from the lines around it |
| EventService.AnswerFields | src/pybot/service/event.py:70-73 | an answer line with clean fields splits on " - " into exactly its three parts |
| EventService.AnswerLineRead | src/pybot/service/event.py:69-82 | a line made of any three-character marker starting with a digit (such as "1. " or "10."), any whitespace, and clean fields reads back as exactly that event: the name is the first field without the marker, stripped |
| EventService.EventLineRoundTrip | src/pybot/service/event.py:69-82 | an event written in the prompt's line format reads back as the same event |
| EventService.EventLinesRoundTrip | src/pybot/service/event.py:68-82 | a numbered list of events, one per line, reads back as the same events in the same order |
| EventService.ParseEventsRoundTrip | src/pybot/service/event.py:62-87 | a whole answer in the prompt's format, without "Error", reads back as exactly the events it lists |
| EventService.ExampleEventLine | src/pybot/service/event.py:73-81 | `1. Tech Con - 2025-06-01 - http://x` reads as the event (Tech Con, 2025-06-01, http://x) |
| EventService.ExampleTenthLine | src/pybot/service/event.py:69-81 | `10. Tech Con - 2025-06-01 - http://x` reads as the same event as the first line: dropping three characters leaves a space that `strip` removes |
| EventService.ExampleTwoPartLine | src/pybot/service/event.py:70-72 | a numbered line with only two " - " parts yields nothing |
| EventService.Deliver | src/pybot/service/event.py:30-33 | one prompt is sent; an answer gives exactly the events `_parse_events` reads from it, saved exactly when there are some; an exception from the service escapes unchanged, with no events and the store unchanged; only past_events is ever written |
| EventService.RecommendEvents | src/pybot/service/event.py:13-33 | without interests nothing is sent and nothing changes; otherwise one events prompt is sent with the interests and the description or its placeholder; the result is what `_parse_events` reads from the answer, or the service's exception; the events returned are exactly the events saved, and no other collection changes |
| EventService.RecommendFormattedAnswer | src/pybot/service/event.py:13-33 | when the service answers with a list in the requested format, `recommend_events` returns exactly the listed events, raises nothing and adds them to the user's history |
| EventService.PreviousText | src/pybot/service/event.py:40 | the exclusion list is "none" without past events, otherwise their names joined with ", " |
| EventService.RecommendMoreEvents | src/pybot/service/event.py:35-60 | as `RecommendEvents`, with a follow-up prompt whose exclusion list is built from the user's ten most recent past events; without interests nothing is sent; only past_events is ever written |
| EventService.RecommendMoreFormattedAnswer | src/pybot/service/event.py:35-60 | when the service answers the follow-up prompt with a list in the requested format, `recommend_more_events` returns exactly the listed events, raises nothing and adds them to the user's history |
| EventService.MoreEventsWithoutHistory | src/pybot/service/event.py:39-40 | for a user without history, the follow-up prompt's exclusion list is "none" |
| EventService.MoreEventsExcludesFirstBatch | src/pybot/service/event.py:30-40 | after a user's first batch, saved with strictly rising readings, the follow-up prompt lists that batch's last ten events to avoid, last saved first |
| UserService.AsSet | src/pybot/service/user.py:17 | `set(xs)` holds exactly the members of the list |
| UserService.RegisterUser | src/pybot/service/user.py:13-20 | the profile filed under the username has exactly the listed interests as a set and the stripped description; other users are untouched |
| UserService.RegisterIdempotent | src/pybot/service/user.py:13-20 | registering twice with the same arguments leaves the store as registering once |
| UserService.RegisterForgetsOrder | src/pybot/service/user.py:17 | interest lists with the same members register the same profile |
| UserService.RegisterTrimsDescription | src/pybot/service/user.py:18 | a description registers the same as its stripped form |
| UserService.GetProfile | src/pybot/service/user.py:22-25 | `get_user` returns the stored profile, or a profile with that username, no interests and an empty description |
| UserService.RegisterThenGet | src/pybot/service/user.py:13-25 | a registered user is read back with exactly what was registered |
| UserService.AddInterest | src/pybot/service/user.py:75-78 | the stored interests become the union of the old and the new ones; the description and other users are kept |
| UserService.AddInterestIdempotent | src/pybot/service/user.py:75-78 | adding the same interests again changes nothing |
| UserService.AddInterestKeepsOld | src/pybot/service/user.py:77 | the stored interest set only grows |
| UserService.RegisterThenAdd | src/pybot/service/user.py:75-78 | adding interests to a registered user gives the set of both lists and keeps the stripped description |
| UserService.ReadMatchLine | src/pybot/service/user.py:65-68 | a line not starting with "- User" is skipped; a match is always one of the candidates' usernames |
| UserService.Collect | src/pybot/service/user.py:62-71 | the matched names, in line order; every name comes from some line's match |
| UserService.ReadMatchLines | src/pybot/service/user.py:62-71 | the matches never outnumber the lines, and each is a candidate's username |
| UserService.ParseMatches | src/pybot/service/user.py:58-73 | an answer containing "Error" gives no matches; every match is a candidate's username; there are never more matches than lines starting with "- User" |
| UserService.MatchesAtMostUserLines | src/pybot/service/user.py:64-68 | each match comes from its own "- User" line: the matches never outnumber those lines |
| UserService.AbortEmptiesAll | src/pybot/service/user.py:63-71 | one "- User" line whose number is not an integer, anywhere in the answer, empties the whole result |
| UserService.ReadUserLine | src/pybot/service/user.py:65-68 | for a stripped token t without ':' or 'U', `- User <t>: ...` aborts exactly when t is not an integer, names candidate n when 1 <= n <= number of candidates, and is skipped otherwise |
| UserService.MatchLineRoundTrip | src/pybot/service/user.py:65-68 | a claim written as `- User <n>: <reason>` reads back as candidate n, or as nothing when n is out of range |
| UserService.MatchLinesRoundTrip | src/pybot/service/user.py:64-68 | the lines of several claims read back as the named candidates in order, repeats kept, out-of-range numbers ignored |
| UserService.ParseMatchesRoundTrip | src/pybot/service/user.py:58-73 | a whole answer in the requested format reads back as the named candidates in order, repeats kept |
| UserService.EmptyAnswerNoMatches | src/pybot/service/user.py:62-73 | an empty answer gives no matches |
| UserService.Candidates | src/pybot/service/user.py:43-48 | the prompt lists every other user, in order, with their interests and their description or its placeholder |
| UserService.FindMatches | src/pybot/service/user.py:33-73 | with no profile or no other users nothing is sent; otherwise one matchmaking prompt, and the result is what the match parser reads from the answer, or the service's exception with no matches; every match is a candidate |
| UserService.FindMatchesOfFormattedAnswer | src/pybot/service/user.py:33-73 | when the service answers in the requested format, `find_matches` returns the usernames the answer names, in order, and raises nothing |
| Handlers.UserKey | src/pybot/handlers.py:28 | the key is the username when there is one, otherwise the decimal id, which reads back as that id |
| Handlers.CommandName | src/pybot/handlers.py:29 | there is no command name exactly when the text has no word; otherwise it is one character shorter than the first word |
| Handlers.Args | src/pybot/handlers.py:133 | the arguments are words: non-empty and without whitespace |
| Handlers.CommandWord | src/pybot/handlers.py:29 | for single-spaced words, the command name is the first word without its first character, and the arguments are the other words |
| Handlers.Gate | src/pybot/handlers.py:15-72 | nothing happens before the rate check; an exception that escapes is the IndexError of a wordless text or the handler's own |
| Handlers.GateWithoutWord | src/pybot/handlers.py:28-30 | a text without words raises before the check: no handler, no audit entry, the store untouched |
| Handlers.GateRefused | src/pybot/handlers.py:30-32 | a refused request gets the rate-limit reply; the handler never runs, no audit entry is written and the store is unchanged |
| Handlers.GateAllowed | src/pybot/handlers.py:26-68 | an allowed request is checked, then handled, then logged exactly once under the fixed command name, with success exactly when the handler did not raise; the handler's exception escapes unchanged |
| Handlers.SourceGateAlwaysRuns | src/pybot/handlers.py:30-33 | with the rate check as written, every request that has a command word reaches its handler |
| Handlers.HelpHandler | src/pybot/handlers.py:97-101 | `help` sends one message, changes nothing and never raises |
| Handlers.HelpCommand | src/pybot/handlers.py:95-101 | an allowed `/help` sends the help text and is logged once as 'help', success |
| Handlers.HelloHandler | src/pybot/handlers.py:105-107 | `hello` sends one message, changes nothing and never raises |
| Handlers.HelloGreetsArgs | src/pybot/handlers.py:106-107 | `/hello a b` greets `a b`: the arguments as typed, joined by single spaces |
| Handlers.HelloCommand | src/pybot/handlers.py:103-107 | an allowed `/hello` sends the greeting and is logged once as 'hello', success |
| Handlers.AddHandler | src/pybot/handlers.py:111-121 | `add` never raises and always sends one message; with a keyword and a working store it adds one to the keyword's count and reports the new count; otherwise the store is unchanged |
| Handlers.AddTwice | src/pybot/handlers.py:115-116 | saying a new keyword twice reports a count of 2 the second time |
| Handlers.AddCommand | src/pybot/handlers.py:109-121 | `/add` never lets an exception escape past the check, and an allowed `/add` is always logged as 'add', success |
| Handlers.FirstQuoted | src/pybot/handlers.py:136-145 | finds the first argument starting with '"'; none before it starts with '"' |
| Handlers.SplitRegisterArgs | src/pybot/handlers.py:133-145 | the interests are the arguments before the first one starting with '"', or all of them; with no quoted argument the description is empty; otherwise it is that argument without its first and last character when it also ends with '"', and the remaining arguments joined by single spaces, without the first and last character, when it does not |
| Handlers.RegisterArgsRoundTrip | src/pybot/handlers.py:136-144 | `i1 .. in "d1 .. dm"` splits back into the interests and the description words joined by single spaces, for one quoted word as for several |
| Handlers.NoInterests | src/pybot/handlers.py:141-147 | no arguments, or a quoted first argument, gives no interests |
| Handlers.RegisterHandler | src/pybot/handlers.py:125-162 | without interests only a usage message is sent and nothing is filed; otherwise the store is exactly the one `register_user` leaves (the profile filed with the interests as a set and the stripped description, nothing else changed), a successful registration sends exactly one reply listing the interests, the description and the matches, and an exception from `find_matches` escapes with no reply |
| Handlers.RegisterWithoutInterests | src/pybot/handlers.py:127-149 | with no arguments the reply is the usage text; with a quoted first argument it asks for an interest; in both cases `register_user` and `find_matches` are not called |
| Handlers.RegisterCommand | src/pybot/handlers.py:123-162 | an allowed `/register` without interests leaves the profiles unchanged and is logged as success; with interests, the sender's profile holds exactly those interests |
| Handlers.EventItems | src/pybot/handlers.py:179-181 | the i-th event is listed as number i+1 with its name, date and link |
| Handlers.EventListLines | src/pybot/handlers.py:179-182 | the reply has the title, then one line per event in order |
| Handlers.Present | src/pybot/handlers.py:174-182 | an exception means no reply; no events gives the apology; otherwise the numbered list |
| Handlers.EventsHandler | src/pybot/handlers.py:166-182 | without interests on file the sender is asked to register and nothing changes; otherwise the sender's history grows by exactly the recommended events, and when there are some they are listed under the title; no collection other than past_events changes |
| Handlers.MoreEventsHandler | src/pybot/handlers.py:186-202 | as `EventsHandler`, through the follow-up recommendation; no collection other than past_events changes |
| Handlers.EventsCommand | src/pybot/handlers.py:164-182 | an allowed `/events` is logged once as 'events'; without interests as success; otherwise with success exactly when the completion service answered the events prompt, and its exception escapes |
| Handlers.MoreEventsCommand | src/pybot/handlers.py:184-202 | an allowed `/more_events` is logged once as 'more_events'; without interests as success; otherwise with success exactly when the completion service answered the follow-up prompt, and its exception escapes |
| Handlers.MessageHandler | src/pybot/handlers.py:206-209 | free text goes to the completion service and its answer goes back; an exception from the service escapes with no reply |
| Handlers.MessageCommand | src/pybot/handlers.py:204-209 | an allowed free-text message is rate-checked under its first word, logged once as 'message', and adds exactly one audit document |
| Handlers.MessageChecksFirstWord | src/pybot/handlers.py:29-64 | free text is rate-checked under its first word without that word's first character, but logged under the fixed name 'message' |

## Left out

- Firestore client setup and credentials (src/pybot/repository.py:18-33) are external I/O. The store is the in-memory `Store`, and its writes never fail. A store error, which would escape the gate before or after the handler, is not modelled.
- Clock readings are the parameter `now`, in microseconds. One request uses one `now` for its check, its counter stamp and its audit entry. The source reads the clock separately for each. Saved events are the exception: `save_events` reads the clock once per event (src/pybot/repository.py:51), so a save takes a `Clock` giving the i-th event its own reading.
- The completion service is the parameter `complete`. A prompt is kept as the pieces the bot fills in: interests, description or placeholder, the "none" or names list, and candidates. The full wording and the unspecified order in which Python joins a set are not modelled.
- Telegram transport: `reply_text` and `send_message` both become `Said` steps. `context.args` is taken to be the words of the text after the first. Failures of the transport itself are not modelled.
- The profile lookup at the top of `find_matches` (src/pybot/service/user.py:27-35) is abstracted. `FindMatches` takes the current profile, if any, and the other profiles, and the `register` handler takes the outcome of `find_matches` as a parameter. As written, the lookup tests `username in` the result of `get_user`, which is a profile or None. That looks as if it always returns [] or raises, but the model does not state this.
- `rpush` (src/pybot/repository.py:72-80) is never called by the handlers and is not part of this model.
- `chatbot.py`, `main.py` and `setting.py` are wiring and configuration and are not part of this model. Logging calls have no effect on behaviour and are dropped.
- `str.isspace`, `str.isdigit` and `int()` are approximated to ASCII. Python also accepts Unicode whitespace and digits, and `int()` accepts underscores between digits.
- The `except` around the loop in `_parse_events` (src/pybot/service/event.py:83-85) is not modelled: no statement in the loop can raise on a string answer.
- Handlers.AddHandler: a failing `incr` leaves the store unchanged in the model. The source's two writes (stamp, then increment) could leave the timestamp written when the increment fails.
- Events with equal timestamps are ordered by Firestore's document id, which the source leaves to chance. `SortNewest` keeps store order among them.
- Repository.PastRecordsAfterSave, Repository.SaveThenReadHistory, Repository.HistoryAfterFirstSave and EventService.MoreEventsExcludesFirstBatch: the order they state assumes strictly rising readings within a batch. With equal readings the order among them is Firestore's random document-id order, so for any readings only the contents are promised, by `Repository.FirstSaveKeepsBatch`.
- Event documents store the event as JSON text. The model stores the `Event` itself, so the `model_dump_json` / `json.loads` round trip is taken as exact.
- The atomicity of `incr` under concurrent requests is the store's concern and is not modelled.
- EventService.ParseEventsRoundTrip: stated for whole answers of at most nine events, whose ordinals are single digits. Single lines with longer markers such as "10." are covered line by line by `EventService.AnswerLineRead`.
- Repository.GetPastEvents: its contract only bounds the number of events; which events come back, and in what order, is stated by `Repository.PastRecords`, `Repository.PastRecordsAreNewest`, `Repository.SaveThenReadHistory` and `Repository.FirstSaveKeepsBatch`.
- Text.Strip: its contract states that the result has no whitespace at either end and when it is empty. It does not state that the result is the middle of the input; `Text.TrimStartIsSuffix` and the `ensures` of `Text.TrimEnd` give the two halves of that separately.
- Handlers.EventsHandler and Handlers.MoreEventsHandler: the handler's `not user_profile` test is never true, because `get_user` always returns a profile, so only the empty-interests branch is modelled.

## Findings

| source | as written | input that shows it | evidently intended | confidence | as-written member | corrected member |
|---|---|---|---|---|---|---|
| src/pybot/repository.py:86-97 | the recent-log query is capped with `.limit(10)`, then compared with `>= 30` | 30 log documents for one user within the last minute: the query returns 10, and 10 < 30, so the request is allowed | refuse once 30 requests fall within the last minute, so 29 pass and the 30th recent request blocks the next one | high (not executed) | Repository.SourceCheckAlwaysAllows | Repository.IntendedBoundary |
| src/pybot/repository.py:86-107 | the rate query filters on the field 'user', while `log_request` writes the field 'username' | any number of `log_request` calls for user u within the last minute: none of those documents has a 'user' field, so u's count stays 0 | the documents `log_request` writes are the ones counted | high (not executed) | Repository.LoggedRequestsNeverCounted | Repository.IntendedCountsLoggedRequests |

The gate takes the rate policy as a parameter. `SourcePolicy` is the query as written and `IntendedPolicy` is the corrected one. `Handlers.SourceGateAlwaysRuns` shows the consequence of the first policy at the gate: every request that has a command word reaches its handler.

=== FILE: completion.dfy ===
/**
 * The text-completion service as the bot sees it: a prompt goes in and text, or
 * an exception, comes back. Its behaviour is a parameter of every operation
 * that calls it. A prompt is kept as the pieces the bot fills into its fixed
 * wording, so the unspecified order in which Python joins a set does not matter.
 */
module Completion {

  /** The stand-in for an empty description in every prompt. */
  const NoDescription := "No additional context provided."

  /** `description or 'No additional context provided.'` */
  function DescriptionText(description: string): (t: string)
    ensures t != []
    ensures description == [] ==> t == NoDescription
    ensures description != [] ==> t == description
  {
    if description == [] then NoDescription else description
  }

  /** What the matching prompt says about one candidate. */
  datatype Candidate = Candidate(interests: set<string>, description: string)

  datatype Prompt =
    | EventsPrompt(interests: set<string>, description: string)
    | MoreEventsPrompt(interests: set<string>, description: string, previous: string)
    | MatchPrompt(interests: set<string>, description: string, candidates: seq<Candidate>)
    | ChatPrompt(text: string)

  /** The service's answer: the completion text, or the exception its call raised. */
  datatype Reply = Text(text: string) | Raised(error: string)
}

=== FILE: event_service.dfy ===
/**
 * Event recommendation: ask the completion service for a numbered list of
 * events, read its free-text answer back into `Event`s, and keep what was read
 * as the user's history.
 */
module EventService {
  import opened Wrappers
  import opened Text
  import opened Numbers
  import opened Model
  import opened Repository
  import opened Completion
  import opened Seqs

  /** Any answer containing this text is treated as an upstream failure. */
  const ErrorMarker := "Error"
  const FieldSeparator := " - "
  const LineBreak := "\n"

  /** How many past events `recommend_more_events` asks the history for. */
  const PastEventsShown: nat := 10

  /**
   * One line of an answer, read as `<ordinal>. <name> - <date> - <link>`. A line
   * counts only when it is not blank and its very first character is a digit; it
   * yields an event only when splitting on " - " gives exactly three parts. The
   * name drops exactly three leading characters, whatever they are.
   */
  function ParseEventLine(line: string): (r: Option<Event>)
    ensures r.Some? <==> line != [] && IsDigit(line[0]) && |Split(line, FieldSeparator)| == 3
    ensures r.Some? ==> Stripped(r.value.name) && Stripped(r.value.date) && Stripped(r.value.link)
  {
    if Strip(line) != [] && IsDigit(line[0]) then
      var parts := Split(line, FieldSeparator);
      if |parts| == 3 then Some(Event(Strip(Drop(parts[0], 3)), Strip(parts[1]), Strip(parts[2])))
      else None
    else None
  }

  /** A line that starts with whitespace is never read as an event, even when a digit follows. */
  lemma IndentedLineDropped(line: string)
    requires line != [] && IsSpace(line[0])
    ensures ParseEventLine(line) == None
  {
    assert !IsDigit(line[0]);
  }

  /** The events of the lines that parse, in line order; the other lines are dropped. */
  function ParseEventLines(lines: seq<string>): seq<Event> {
    FilterMap(lines, ParseEventLine)
  }

  /**
   * `_parse_events`: an answer containing "Error" yields nothing; otherwise the
   * trimmed answer is cut at line breaks and every line is read on its own.
   */
  function ParseEvents(response: string): (events: seq<Event>)
    ensures Contains(response, ErrorMarker) ==> events == []
    ensures |events| <= |Split(Strip(response), LineBreak)|
  {
    if Contains(response, ErrorMarker) then []
    else ParseEventLines(Split(Strip(response), LineBreak))
  }

  /** Reading lines is line by line: the events of `a + b` are those of `a` followed by those of `b`. */
  lemma ParseEventLinesAppend(a: seq<string>, b: seq<string>)
    ensures ParseEventLines(a + b) == ParseEventLines(a) + ParseEventLines(b)
  {
    FilterMapAppend(a, b, ParseEventLine);
  }

  /** A line that does not parse changes nothing about the events read from the lines around it. */
  lemma DroppedLineIsInvisible(before: seq<string>, line: string, after: seq<string>)
    requires ParseEventLine(line) == None
    ensures ParseEventLines(before + [line] + after) == ParseEventLines(before) + ParseEventLines(after)
  {
    assert before + [line] + after == before + ([line] + after);
    FilterMapAppend(before, [line] + after, ParseEventLine);
    FilterMapCons(line, after, ParseEventLine);
  }

  // ------------------------------------------------------------ round trip

  /** A '-' with a space, or the field's edge, on both sides: it would read as a separator. */
  predicate SpacedDashAt(f: string, i: int) {
    && 0 <= i < |f| && f[i] == '-'
    && (i == 0 || f[i - 1] == ' ')
    && (i == |f| - 1 || f[i + 1] == ' ')
  }

  /** A field that survives being written between " - " separators and read back. */
  predicate CleanField(f: string) {
    && f != [] && Stripped(f) && '\n' !in f
    && forall i :: 0 <= i < |f| ==> !SpacedDashAt(f, i)
  }

  predicate CleanEvent(e: Event) {
    CleanField(e.name) && CleanField(e.date) && CleanField(e.link)
  }

  /**
   * A list marker as the service may write it: three characters, a digit first
   * and no '-', such as "1. " or "10.".
   */
  predicate ListHead(head: string) {
    |head| == 3 && IsDigit(head[0]) && '-' !in head
  }

  /** An answer line: a list marker, any run of whitespace, then the three fields between " - " separators. */
  function AnswerLine(head: string, pad: string, e: Event): string {
    head + pad + e.name + FieldSeparator + e.date + FieldSeparator + e.link
  }

  /** The line the prompt asks for: `<ordinal>. <name> - <date> - <link>`. */
  function FormatEventLine(ordinal: char, e: Event): string {
    AnswerLine([ordinal, '.', ' '], "", e)
  }

  /** The numbered list the prompt asks for, numbered from 1. */
  function FormatEventLines(events: seq<Event>): (lines: seq<string>)
    requires |events| <= 9
  {
    seq(|events|, i requires 0 <= i < |events| => FormatEventLine(DigitChar(i + 1), events[i]))
  }

  function FormatEvents(events: seq<Event>): string
    requires |events| <= 9
  {
    Join(FormatEventLines(events), LineBreak)
  }

  lemma NoEarlySeparator(a: string, b: string)
    requires a != [] && Stripped(a)
    requires forall i :: 0 <= i < |a| ==> !SpacedDashAt(a, i)
    ensures forall j :: 0 <= j < |a| ==> !IsAt(a + FieldSeparator + b, FieldSeparator, j)
  {
    var x := a + FieldSeparator + b;
    forall j | 0 <= j < |a| ensures !IsAt(x, FieldSeparator, j) {
      assert FieldSeparator[0] == ' ' && FieldSeparator[1] == '-' && FieldSeparator[2] == ' ';
      assert x[j] == a[j];
      assert x[|a|] == ' ';
      if j + 1 < |a| {
        assert x[j + 1] == a[j + 1];
        assert j + 2 < |a| ==> x[j + 2] == a[j + 2];
        assert !SpacedDashAt(a, j + 1);
      }
    }
  }

  lemma NoSeparatorInClean(f: string)
    requires forall i :: 0 <= i < |f| ==> !SpacedDashAt(f, i)
    ensures !Contains(f, FieldSeparator)
  {
    forall j | 0 <= j <= |f| ensures !IsAt(f, FieldSeparator, j) {
      if j + 3 <= |f| {
        assert FieldSeparator[0] == ' ' && FieldSeparator[1] == '-' && FieldSeparator[2] == ' ';
        assert !SpacedDashAt(f, j + 1);
      }
    }
  }

  /** The first field of an answer line, marker and whitespace included, holds no separator and is trimmed. */
  lemma HeadIsClean(head: string, pad: string, name: string)
    requires ListHead(head) && AllSpace(pad) && CleanField(name)
    ensures var first := head + pad + name;
      first != [] && Stripped(first) && forall i :: 0 <= i < |first| ==> !SpacedDashAt(first, i)
  {
    var first := head + pad + name;
    var k := |head| + |pad|;
    forall i | 0 <= i < |first| ensures !SpacedDashAt(first, i) {
      if i < k {
        assert first[i] == (head + pad)[i];
        assert i < 3 ==> first[i] == head[i];
        assert i >= 3 ==> first[i] == pad[i - 3];
      } else {
        assert first[i] == name[i - k];
        assert i + 1 < |first| ==> first[i + 1] == name[i - k + 1];
        assert i > k ==> first[i - 1] == name[i - k - 1];
        assert !SpacedDashAt(name, i - k);
      }
    }
  }

  /** The three fields of an answer line are what splitting it on " - " gives back. */
  lemma AnswerFields(head: string, pad: string, e: Event)
    requires ListHead(head) && AllSpace(pad) && CleanEvent(e)
    ensures Split(AnswerLine(head, pad, e), FieldSeparator) == [head + pad + e.name, e.date, e.link]
  {
    var first := head + pad + e.name;
    var tail := e.date + FieldSeparator + e.link;
    assert AnswerLine(head, pad, e) == first + FieldSeparator + tail;
    HeadIsClean(head, pad, e.name);
    NoEarlySeparator(first, tail);
    SplitAtFirst(first, FieldSeparator, tail);
    NoEarlySeparator(e.date, e.link);
    SplitAtFirst(e.date, FieldSeparator, e.link);
    NoSeparatorInClean(e.link);
    SplitWithout(e.link, FieldSeparator);
  }

  /** Cutting the three-character marker off the first field and stripping it leaves the name. */
  lemma MarkerCut(head: string, pad: string, name: string)
    requires |head| == 3 && AllSpace(pad) && CleanField(name)
    ensures Strip(Drop(head + pad + name, 3)) == name
  {
    assert Drop(head + pad + name, 3) == pad + name;
    StripLeadingSpaces(pad, name);
  }

  /**
   * An answer line with clean fields reads back as its event, whatever its
   * three-character marker and however much whitespace follows it: the name is
   * what remains of the first field once the marker is cut off and it is trimmed.
   */
  lemma AnswerLineRead(head: string, pad: string, e: Event)
    requires ListHead(head) && AllSpace(pad) && CleanEvent(e)
    ensures ParseEventLine(AnswerLine(head, pad, e)) == Some(e)
  {
    var line := AnswerLine(head, pad, e);
    AnswerFields(head, pad, e);
    MarkerCut(head, pad, e.name);
    assert line[0] == head[0];
    assert !AllSpace(line);
  }

  /** Writing an event as the prompt's line format and reading it back gives the event. */
  lemma EventLineRoundTrip(ordinal: char, e: Event)
    requires IsDigit(ordinal) && CleanEvent(e)
    ensures ParseEventLine(FormatEventLine(ordinal, e)) == Some(e)
  {
    var head := [ordinal, '.', ' '];
    assert '-' !in head;
    AnswerLineRead(head, "", e);
  }

  lemma EventLinesRoundTrip(events: seq<Event>)
    requires |events| <= 9
    requires forall i :: 0 <= i < |events| ==> CleanEvent(events[i])
    ensures ParseEventLines(FormatEventLines(events)) == events
  {
    var lines := FormatEventLines(events);
    forall i | 0 <= i < |lines| ensures ParseEventLine(lines[i]) == Some(events[i]) {
      EventLineRoundTrip(DigitChar(i + 1), events[i]);
    }
    FilterMapAll(lines, events, ParseEventLine);
  }

  /** A formatted line is one line, starts with its ordinal and ends where the link ends. */
  lemma FormattedLineShape(ordinal: char, e: Event)
    requires IsDigit(ordinal) && CleanEvent(e)
    ensures var line := FormatEventLine(ordinal, e);
      && '\n' !in line && line != [] && line[0] == ordinal
      && line[|line| - 1] == e.link[|e.link| - 1]
  {
  }

  /**
   * An answer in exactly the format the prompt asks for, with clean fields and
   * up to nine lines, splits back into the lines it was made of.
   */
  lemma FormattedResponseLines(events: seq<Event>)
    requires 1 <= |events| <= 9
    requires forall i :: 0 <= i < |events| ==> CleanEvent(events[i])
    ensures Split(FormatEvents(events), LineBreak) == FormatEventLines(events)
  {
    var lines := FormatEventLines(events);
    forall i | 0 <= i < |lines| ensures '\n' !in lines[i] {
      FormattedLineShape(DigitChar(i + 1), events[i]);
    }
    JoinSplit(lines, LineBreak);
  }

  lemma FormattedResponseStripped(events: seq<Event>)
    requires |events| <= 9
    requires forall i :: 0 <= i < |events| ==> CleanEvent(events[i])
    ensures Stripped(FormatEvents(events))
  {
    var lines := FormatEventLines(events);
    if events != [] {
      FormattedLineShape(DigitChar(1), events[0]);
      FormattedLineShape(DigitChar(|events|), events[|events| - 1]);
      JoinStripped(lines, LineBreak);
    }
  }

  lemma ParseEventsRoundTrip(events: seq<Event>)
    requires |events| <= 9
    requires forall i :: 0 <= i < |events| ==> CleanEvent(events[i])
    requires !Contains(FormatEvents(events), ErrorMarker)
    ensures ParseEvents(FormatEvents(events)) == events
  {
    FormattedResponseStripped(events);
    if events == [] {
      assert Split([], LineBreak) == [[]];
      assert ParseEventLine([]) == None;
    } else {
      FormattedResponseLines(events);
      EventLinesRoundTrip(events);
    }
  }

  const ExampleEvent := Event("Tech Con", "2025-06-01", "http://x")

  lemma ExampleDateIsClean()
    ensures CleanField(ExampleEvent.date)
  {
    var d := ExampleEvent.date;
    assert d == ['2', '0', '2', '5', '-', '0', '6', '-', '0', '1'];
    forall i | 0 <= i < |d| ensures !SpacedDashAt(d, i) {
      if i == 4 || i == 7 {
        assert d[i - 1] != ' ';
      } else {
        assert d[i] != '-';
      }
    }
  }

  lemma ExampleEventIsClean()
    ensures CleanEvent(ExampleEvent)
  {
    ExampleDateIsClean();
  }

  const ExampleLine := "1. Tech Con" + " - " + "2025-06-01" + " - " + "http://x"

  lemma ExampleLineIsFormatted()
    ensures FormatEventLine('1', ExampleEvent) == ExampleLine
  {
    assert ['1', '.', ' '] + ExampleEvent.name == "1. Tech Con";
  }

  lemma ExampleEventRoundTrip()
    ensures ParseEventLine(FormatEventLine('1', ExampleEvent)) == Some(ExampleEvent)
  {
    ExampleEventIsClean();
    EventLineRoundTrip('1', ExampleEvent);
  }

  /** A well-formed answer line and what it is read as. */
  lemma ExampleEventLine()
    ensures ParseEventLine(ExampleLine) == Some(ExampleEvent)
  {
    ExampleEventRoundTrip();
    ExampleLineIsFormatted();
  }

  const ExampleTenth := "10." + " " + "Tech Con" + " - " + "2025-06-01" + " - " + "http://x"

  lemma ExampleTenthIsAnswerLine()
    ensures ExampleTenth == AnswerLine("10.", " ", ExampleEvent)
  {
  }

  /** The tenth line of a longer list: the marker "10." is cut off and the space after it trimmed away. */
  lemma ExampleTenthLine()
    ensures ParseEventLine(ExampleTenth) == Some(ExampleEvent)
  {
    ExampleEventIsClean();
    ExampleTenthIsAnswerLine();
    AnswerLineRead("10.", " ", ExampleEvent);
  }

  /** A numbered line with only two " - " separated parts is dropped. */
  lemma ExampleTwoPartLine()
    ensures ParseEventLine("2. Only - two") == None
  {
    var a, b := "2. Only", "two";
    assert "2. Only - two" == a + FieldSeparator + b;
    NoEarlySeparator(a, b);
    SplitAtFirst(a, FieldSeparator, b);
    NoSeparatorInClean(b);
    SplitWithout(b, FieldSeparator);
  }

  // --------------------------------------------------------- recommendation

  /** What a recommendation call returns, the store it leaves, the prompts it sent and any exception it raised. */
  datatype Recommendation = Recommendation(events: seq<Event>, store: Store, prompts: seq<Prompt>, failure: Option<string>)

  /**
   * Send the prompt; when the service raises, pass the exception on with nothing
   * saved; on an answer, the events read from it, saved when there are any.
   */
  function Deliver(username: string, s: Store, clock: Clock, prompt: Prompt, complete: Prompt -> Reply): (r: Recommendation)
    ensures r.prompts == [prompt]
    ensures complete(prompt).Raised? ==> r.failure == Some(complete(prompt).error) && r.events == [] && r.store == s
    ensures complete(prompt).Text? ==> r.failure.None? && r.events == ParseEvents(complete(prompt).text)
    ensures r.store.pastEvents == s.pastEvents + Records(username, r.events, clock)
    ensures r.store == s.(pastEvents := r.store.pastEvents)
    ensures r.store == s <==> r.events == []
  {
    match complete(prompt)
    case Raised(e) => Recommendation([], s, [prompt], Some(e))
    case Text(t) =>
      var events := ParseEvents(t);
      if events == [] then
        assert Records(username, events, clock) == [];
        Recommendation([], s, [prompt], None)
      else
        assert SaveEvents(s, username, events, clock).pastEvents != s.pastEvents by {
          assert |SaveEvents(s, username, events, clock).pastEvents| > |s.pastEvents|;
        }
        Recommendation(events, SaveEvents(s, username, events, clock), [prompt], None)
  }

  /** The prompt `recommend_events` sends for a profile. */
  function FirstPrompt(profile: UserProfile): Prompt {
    EventsPrompt(profile.interests, DescriptionText(profile.description))
  }

  /**
   * `recommend_events`: nothing, and no call to the service, without interests;
   * otherwise the events read from the answer, saved to history exactly when
   * there are some, or the service's exception with nothing saved.
   */
  function RecommendEvents(profile: UserProfile, s: Store, clock: Clock, complete: Prompt -> Reply): (r: Recommendation)
    ensures profile.interests == {} ==> r == Recommendation([], s, [], None)
    ensures profile.interests != {} ==> r.prompts == [FirstPrompt(profile)]
    ensures profile.interests != {} && complete(FirstPrompt(profile)).Text? ==>
      r.failure.None? && r.events == ParseEvents(complete(FirstPrompt(profile)).text)
    ensures profile.interests != {} && complete(FirstPrompt(profile)).Raised? ==>
      r.failure == Some(complete(FirstPrompt(profile)).error) && r.events == []
    ensures r.store.pastEvents == s.pastEvents + Records(profile.username, r.events, clock)
    ensures r.store == s.(pastEvents := r.store.pastEvents)
    ensures r.store == s <==> r.events == []
  {
    if profile.interests == {} then Recommendation([], s, [], None)
    else Deliver(profile.username, s, clock, FirstPrompt(profile), complete)
  }

  function Names(events: seq<Event>): (names: seq<string>)
    ensures |names| == |events|
    ensures forall i :: 0 <= i < |events| ==> names[i] == events[i].name
  {
    seq(|events|, i requires 0 <= i < |events| => events[i].name)
  }

  /** The exclusion list of the follow-up prompt: the names, or "none" when there are no past events. */
  function PreviousText(past: seq<Event>): (t: string)
    ensures past == [] ==> t == "none"
    ensures past != [] ==> t == Join(Names(past), ", ")
  {
    if past == [] then "none" else Join(Names(past), ", ")
  }

  /** The prompt `recommend_more_events` sends: the profile and the names of its ten most recent past events. */
  function FollowUpPrompt(profile: UserProfile, s: Store): Prompt {
    MoreEventsPrompt(profile.interests, DescriptionText(profile.description),
      PreviousText(GetPastEvents(s, profile.username, PastEventsShown)))
  }

  /**
   * `recommend_more_events`: like `RecommendEvents`, but the prompt also lists the
   * names of at most ten of the user's most recent past events, or "none".
   */
  function RecommendMoreEvents(profile: UserProfile, s: Store, clock: Clock, complete: Prompt -> Reply): (r: Recommendation)
    ensures profile.interests == {} ==> r == Recommendation([], s, [], None)
    ensures profile.interests != {} ==>
      && |r.prompts| == 1 && r.prompts[0].MoreEventsPrompt?
      && r.prompts[0].interests == profile.interests
      && r.prompts[0].description == DescriptionText(profile.description)
      && r.prompts[0].previous == PreviousText(GetPastEvents(s, profile.username, PastEventsShown))
    ensures profile.interests != {} && complete(FollowUpPrompt(profile, s)).Text? ==>
      r.failure.None? && r.events == ParseEvents(complete(FollowUpPrompt(profile, s)).text)
    ensures profile.interests != {} && complete(FollowUpPrompt(profile, s)).Raised? ==>
      r.failure == Some(complete(FollowUpPrompt(profile, s)).error) && r.events == []
    ensures r.store.pastEvents == s.pastEvents + Records(profile.username, r.events, clock)
    ensures r.store == s.(pastEvents := r.store.pastEvents)
    ensures r.store == s <==> r.events == []
  {
    if profile.interests == {} then Recommendation([], s, [], None)
    else Deliver(profile.username, s, clock, FollowUpPrompt(profile, s), complete)
  }

  /** With no history at all, the follow-up prompt's exclusion list is "none". */
  lemma MoreEventsWithoutHistory(profile: UserProfile, s: Store, clock: Clock, complete: Prompt -> Reply)
    requires profile.interests != {}
    requires forall i :: 0 <= i < |s.pastEvents| ==> s.pastEvents[i].user != profile.username
    ensures RecommendMoreEvents(profile, s, clock, complete).prompts[0].previous == "none"
  {
    NoRecordsNoHistory(s, profile.username, PastEventsShown);
  }

  /**
   * What the follow-up prompt asks the service to avoid after a user's first
   * batch: the names of that batch, last saved first, at most ten of them, when
   * the clock moved forward while the batch was saved.
   */
  lemma MoreEventsExcludesFirstBatch(profile: UserProfile, s: Store, clock: Clock, later: Clock, complete: Prompt -> Reply)
    requires profile.interests != {}
    requires forall i :: 0 <= i < |s.pastEvents| ==> s.pastEvents[i].user != profile.username
    requires Ticking(clock, |RecommendEvents(profile, s, clock, complete).events|)
    ensures var first := RecommendEvents(profile, s, clock, complete);
      RecommendMoreEvents(profile, first.store, later, complete).prompts[0].previous
        == PreviousText(Take(Reverse(first.events), PastEventsShown))
  {
    var first := RecommendEvents(profile, s, clock, complete);
    HistoryAfterFirstSave(s, first.store, profile.username, first.events, clock, PastEventsShown);
  }

  /**
   * When the service answers the events prompt with a list in the requested
   * format, `recommend_events` returns exactly the listed events, raises
   * nothing, and adds them to the user's history.
   */
  lemma RecommendFormattedAnswer(profile: UserProfile, s: Store, clock: Clock, events: seq<Event>, complete: Prompt -> Reply)
    requires profile.interests != {}
    requires |events| <= 9
    requires forall i :: 0 <= i < |events| ==> CleanEvent(events[i])
    requires !Contains(FormatEvents(events), ErrorMarker)
    requires complete(FirstPrompt(profile)) == Text(FormatEvents(events))
    ensures var r := RecommendEvents(profile, s, clock, complete);
      && r.events == events && r.failure.None?
      && r.store.pastEvents == s.pastEvents + Records(profile.username, events, clock)
  {
    ParseEventsRoundTrip(events);
  }

  /** The same for the follow-up prompt of `recommend_more_events`. */
  lemma RecommendMoreFormattedAnswer(profile: UserProfile, s: Store, clock: Clock, events: seq<Event>, complete: Prompt -> Reply)
    requires profile.interests != {}
    requires |events| <= 9
    requires forall i :: 0 <= i < |events| ==> CleanEvent(events[i])
    requires !Contains(FormatEvents(events), ErrorMarker)
    requires complete(FollowUpPrompt(profile, s)) == Text(FormatEvents(events))
    ensures var r := RecommendMoreEvents(profile, s, clock, complete);
      && r.events == events && r.failure.None?
      && r.store.pastEvents == s.pastEvents + Records(profile.username, events, clock)
  {
    ParseEventsRoundTrip(events);
  }
}

=== FILE: handlers.dfy ===
/**
 * The Telegram command handlers and the gate each of them sits behind. The
 * gate is the pair of decorators on every handler: the rate check of
 * `before_request` outside, the audit entry of `after_request` inside. A
 * handler's effect is a parameter of the gate (`Store -> Handled`), and what
 * the gate does is reported as a trace of steps.
 */
module Handlers {
  import opened Wrappers
  import opened Seqs
  import opened Text
  import opened Numbers
  import opened Model
  import opened Repository
  import opened Completion
  import opened EventService
  import opened UserService

  /** What the handlers read from a Telegram update: the sender and the message text. */
  datatype Request = Request(username: string, userId: int, text: string)

  /** `username or str(id)`: the key a sender is checked, logged and filed under. */
  function UserKey(req: Request): (key: string)
    ensures key != []
    ensures req.username != [] ==> key == req.username
    ensures req.username == [] ==> ParseInt(key) == Some(req.userId)
  {
    if req.username != [] then req.username
    else
      IntToStringShape(req.userId);
      ParseIntRoundTrip(req.userId);
      IntToString(req.userId)
  }

  /**
   * `text.split()[0][1:]`: the first word without its first character (the '/'
   * of a command). `None` where `split()[0]` raises because the text holds no word.
   */
  function CommandName(text: string): (name: Option<string>)
    ensures name.None? <==> Words(text) == []
    ensures name.Some? ==> |name.value| == |Words(text)[0]| - 1
  {
    var ws := Words(text);
    if ws == [] then None else Some(ws[0][1..])
  }

  /** `context.args`: the words after the command word. */
  function Args(text: string): (args: seq<string>)
    ensures forall i :: 0 <= i < |args| ==> IsWord(args[i])
  {
    var ws := Words(text);
    if ws == [] then [] else ws[1..]
  }

  /** A message of words separated by single spaces: its first word names the command, the rest are the arguments. */
  lemma CommandWord(w: string, rest: seq<string>)
    requires IsWord(w)
    requires forall i :: 0 <= i < |rest| ==> IsWord(rest[i])
    ensures CommandName(Join([w] + rest, " ")) == Some(w[1..])
    ensures Args(Join([w] + rest, " ")) == rest
  {
    var ws := [w] + rest;
    WordsJoin(ws);
    assert ws[1..] == rest;
  }

  // ------------------------------------------------------------------ gate

  /** One thing the gate did, in order. */
  datatype Step =
    | Checked(user: string, command: string, allowed: bool)
    | Ran(command: string)
    | Said(text: string)
    | Logged(user: string, command: string, success: bool)

  /** What a handler did: the store it left, the messages it sent and the exception it raised, if any. */
  datatype Handled = Handled(store: Store, said: seq<string>, failure: Option<string>)

  /** What a gated command did: the store it left, its steps and the exception that escaped it, if any. */
  datatype Outcome = Outcome(store: Store, trace: seq<Step>, failure: Option<string>)

  const RateLimitReply := "Rate limit exceeded. Try again in a minute."

  /** The exception `text.split()[0]` raises on a text without words. */
  const NoCommandWord := "IndexError: list index out of range"

  function Saying(texts: seq<string>): (steps: seq<Step>)
    ensures |steps| == |texts|
    ensures forall i :: 0 <= i < |texts| ==> steps[i] == Said(texts[i])
  {
    seq(|texts|, i requires 0 <= i < |texts| => Said(texts[i]))
  }

  function LogOf(step: Step): Option<Step> {
    if step.Logged? then Some(step) else None
  }

  /** The audit entries among the steps, in order. */
  function Logs(trace: seq<Step>): seq<Step> {
    FilterMap(trace, LogOf)
  }

  /** The rate check lets the request through: it has a command word and the check says yes. */
  predicate Allowed(p: RatePolicy, req: Request, s: Store, now: int) {
    match CommandName(req.text)
    case None => false
    case Some(cmd) => CheckRateLimit(p, s, UserKey(req), cmd, now)
  }

  /**
   * A handler decorated with `@before_request` over `@after_request(command)`.
   * The rate check runs first, under the command word of the text. When it
   * refuses, the sender is told so and nothing else happens. Otherwise the
   * handler runs and exactly one audit entry is written under the fixed name
   * `command`; its success flag says whether the handler raised, and the
   * handler's exception, if any, escapes the gate.
   */
  function Gate(p: RatePolicy, command: string, req: Request, s: Store, now: int, handler: Store -> Handled): (o: Outcome)
    ensures o.trace != [] ==> o.trace[0].Checked? && o.trace[0].user == UserKey(req)
    ensures o.failure.Some? ==> o.failure == Some(NoCommandWord) || o.failure == handler(s).failure
  {
    var user := UserKey(req);
    match CommandName(req.text)
    case None => Outcome(s, [], Some(NoCommandWord))
    case Some(cmd) =>
      if !CheckRateLimit(p, s, user, cmd, now) then
        Outcome(s, [Checked(user, cmd, false), Said(RateLimitReply)], None)
      else
        var h := handler(s);
        var success := h.failure.None?;
        Outcome(LogRequest(h.store, user, command, success, now),
          [Checked(user, cmd, true), Ran(command)] + Saying(h.said) + [Logged(user, command, success)],
          h.failure)
  }

  /** A text without words raises before the rate check: no handler, no audit entry, the store untouched. */
  lemma GateWithoutWord(p: RatePolicy, command: string, req: Request, s: Store, now: int, handler: Store -> Handled)
    requires Words(req.text) == []
    ensures var o := Gate(p, command, req, s, now, handler);
      o.store == s && o.trace == [] && o.failure == Some(NoCommandWord)
  {
  }

  /** A refused request: the sender is told, the handler never runs and no audit entry is written. */
  lemma GateRefused(p: RatePolicy, command: string, req: Request, s: Store, now: int, handler: Store -> Handled)
    requires Words(req.text) != [] && !Allowed(p, req, s, now)
    ensures var o := Gate(p, command, req, s, now, handler);
      && o.store == s && o.failure.None?
      && (forall i :: 0 <= i < |o.trace| ==> !o.trace[i].Ran?)
      && Logs(o.trace) == []
      && o.trace[|o.trace| - 1] == Said(RateLimitReply)
  {
    var o := Gate(p, command, req, s, now, handler);
    FilterMapNone(o.trace, LogOf);
  }

  lemma LogsOfRun(head: seq<Step>, said: seq<string>, last: Step)
    requires forall i :: 0 <= i < |head| ==> !head[i].Logged?
    requires last.Logged?
    ensures Logs(head + Saying(said) + [last]) == [last]
  {
    FilterMapAppend(head + Saying(said), [last], LogOf);
    FilterMapAppend(head, Saying(said), LogOf);
    FilterMapNone(head, LogOf);
    FilterMapNone(Saying(said), LogOf);
    FilterMapAll([last], [last], LogOf);
  }

  /**
   * An allowed request: the check comes first, then the handler; exactly one
   * audit entry follows, under the fixed command name, with success exactly
   * when the handler did not raise; the handler's exception escapes unchanged.
   */
  lemma GateAllowed(p: RatePolicy, command: string, req: Request, s: Store, now: int, handler: Store -> Handled)
    requires Allowed(p, req, s, now)
    ensures var o := Gate(p, command, req, s, now, handler);
      var h := handler(s);
      && o.trace[0] == Checked(UserKey(req), CommandName(req.text).value, true)
      && o.trace[1] == Ran(command)
      && Logs(o.trace) == [Logged(UserKey(req), command, h.failure.None?)]
      && o.trace[|o.trace| - 1] == Logged(UserKey(req), command, h.failure.None?)
      && o.failure == h.failure
      && o.store == LogRequest(h.store, UserKey(req), command, h.failure.None?, now)
  {
    var h := handler(s);
    var user := UserKey(req);
    LogsOfRun([Checked(user, CommandName(req.text).value, true), Ran(command)], h.said,
      Logged(user, command, h.failure.None?));
  }

  /** With the rate check as written, every request with a command word reaches its handler. */
  lemma SourceGateAlwaysRuns(req: Request, s: Store, now: int)
    requires Words(req.text) != []
    ensures Allowed(SourcePolicy, req, s, now)
  {
    SourceCheckAlwaysAllows(s, UserKey(req), CommandName(req.text).value, now);
  }

  // ---------------------------------------------------------- help, hello

  const HelpText := "Commands: /help, /hello, /add, /register, /events, /more_events\n"
    + "Example: /register gaming vr \"I enjoy fast-paced shooter games\""

  function HelpHandler(s: Store): (h: Handled)
    ensures h.store == s && h.failure.None? && |h.said| == 1
  {
    Handled(s, [HelpText], None)
  }

  /** `/help` behind its gate: when allowed, it answers and the audit entry reads 'help', success. */
  function HelpCommand(p: RatePolicy, req: Request, s: Store, now: int): (o: Outcome)
    ensures Allowed(p, req, s, now) ==>
      o.failure.None? && Logs(o.trace) == [Logged(UserKey(req), "help", true)] && Said(HelpText) in o.trace
  {
    var o := Gate(p, "help", req, s, now, HelpHandler);
    if Allowed(p, req, s, now) then
      GateAllowed(p, "help", req, s, now, HelpHandler);
      assert o.trace[2] == Said(HelpText);
      o
    else o
  }

  /** `Good day, <args joined by spaces>!`, or `Good day, friend!` without arguments. */
  function Greeting(args: seq<string>): string {
    "Good day, " + (if args == [] then "friend" else Join(args, " ")) + "!"
  }

  function HelloHandler(args: seq<string>, s: Store): (h: Handled)
    ensures h.store == s && h.failure.None? && |h.said| == 1
  {
    Handled(s, [Greeting(args)], None)
  }

  /** `/hello a b` greets `a b`: the words after the command word, as typed. */
  lemma HelloGreetsArgs(command: string, ws: seq<string>, s: Store)
    requires IsWord(command)
    requires ws != [] && forall i :: 0 <= i < |ws| ==> IsWord(ws[i])
    ensures HelloHandler(Args(Join([command] + ws, " ")), s).said == ["Good day, " + Join(ws, " ") + "!"]
  {
    CommandWord(command, ws);
  }

  function HelloCommand(p: RatePolicy, req: Request, s: Store, now: int): (o: Outcome)
    ensures Allowed(p, req, s, now) ==>
      o.failure.None? && Logs(o.trace) == [Logged(UserKey(req), "hello", true)]
      && Said(Greeting(Args(req.text))) in o.trace
  {
    var handler := s0 => HelloHandler(Args(req.text), s0);
    var o := Gate(p, "hello", req, s, now, handler);
    if Allowed(p, req, s, now) then
      GateAllowed(p, "hello", req, s, now, handler);
      assert o.trace[2] == Said(Greeting(Args(req.text)));
      o
    else o
  }

  // ------------------------------------------------------------------- add

  const AddUsage := "Usage: /add <keyword>"
  const AddError := "An error occurred."

  /**
   * `add`: count the first argument and answer with its new count. A missing
   * argument and a failing store call (`incrFailure`) are caught and answered;
   * nothing escapes.
   */
  function AddHandler(args: seq<string>, s: Store, now: int, incrFailure: Option<string>): (h: Handled)
    ensures h.failure.None? && |h.said| == 1
    ensures args != [] && incrFailure.None? ==>
      var key := args[0];
      && key in h.store.rateLimits
      && h.store.rateLimits[key].count == (if key in s.rateLimits then s.rateLimits[key].count else 0) + 1
      && h.said[0] == "You have said " + key + " for " + IntToString(h.store.rateLimits[key].count) + " times"
    ensures args == [] || incrFailure.Some? ==> h.store == s
  {
    if args == [] then Handled(s, [AddUsage], None)
    else
      match incrFailure
      case Some(_) => Handled(s, [AddError], None)
      case None =>
        var key := args[0];
        var r := Incr(s, key, now);
        Handled(r.store, ["You have said " + key + " for " + IntToString(r.count) + " times"], None)
  }

  /** Saying a new keyword twice: the second answer counts two. */
  lemma AddTwice(key: string, s: Store, now: int, later: int)
    requires key !in s.rateLimits
    ensures var first := AddHandler([key], s, now, None);
      AddHandler([key], first.store, later, None).said == ["You have said " + key + " for 2 times"]
  {
    var first := AddHandler([key], s, now, None);
    var second := AddHandler([key], first.store, later, None);
    assert first.store.rateLimits[key].count == 1;
    assert IntToString(2) == NatToString(2) == [DigitChar(2)] == "2";
    assert second.said[0] == "You have said " + key + " for " + "2" + " times";
    assert "You have said " + key + " for " + "2" + " times" == "You have said " + key + " for 2 times";
  }

  /** `/add` behind its gate: whatever the store call does, an allowed `/add` logs success and raises nothing. */
  function AddCommand(p: RatePolicy, req: Request, s: Store, now: int, incrFailure: Option<string>): (o: Outcome)
    ensures Words(req.text) != [] ==> o.failure.None?
    ensures Allowed(p, req, s, now) ==> Logs(o.trace) == [Logged(UserKey(req), "add", true)]
  {
    var handler := s0 => AddHandler(Args(req.text), s0, now, incrFailure);
    var o := Gate(p, "add", req, s, now, handler);
    if Allowed(p, req, s, now) then
      GateAllowed(p, "add", req, s, now, handler);
      o
    else o
  }

  // -------------------------------------------------------------- register

  const Quote := "\""

  /** The index of the first argument that starts with '"', if any. */
  function FirstQuoted(args: seq<string>): (r: Option<nat>)
    ensures r.Some? ==> r.value < |args| && StartsWith(args[r.value], Quote)
    ensures forall i :: 0 <= i < |args| && (r.None? || i < r.value) ==> !StartsWith(args[i], Quote)
    decreases |args|
  {
    if args == [] then None
    else if StartsWith(args[0], Quote) then Some(0)
    else
      match FirstQuoted(args[1..])
      case None => None
      case Some(i) => Some(i + 1)
  }

  /** `/register`'s arguments: the interests and the description. */
  datatype RegisterArgs = RegisterArgs(interests: seq<string>, description: string)

  /**
   * The interests are the arguments before the first one starting with '"', or
   * all of them. When that argument also ends with '"', the description is that
   * argument without its first and last character; otherwise it is the rest of
   * the arguments joined by single spaces, without the first and last character.
   */
  function SplitRegisterArgs(args: seq<string>): (ra: RegisterArgs)
    ensures |ra.interests| <= |args| && ra.interests == args[..|ra.interests|]
    ensures forall i :: 0 <= i < |ra.interests| ==> !StartsWith(ra.interests[i], Quote)
    ensures |ra.interests| < |args| ==> StartsWith(args[|ra.interests|], Quote)
    ensures |ra.interests| == |args| ==> ra.description == []
    ensures |ra.interests| < |args| ==>
      var arg := args[|ra.interests|];
      ra.description == if EndsWith(arg, Quote) then Inner(arg) else Inner(Join(args[|ra.interests|..], " "))
  {
    match FirstQuoted(args)
    case None => RegisterArgs(args, "")
    case Some(i) =>
      var arg := args[i];
      RegisterArgs(args[..i], if EndsWith(arg, Quote) then Inner(arg) else Inner(Join(args[i..], " ")))
  }

  /** How a description of several words arrives: the words, the first with a '"' in front and the last with one behind. */
  function QuotedWords(dws: seq<string>): (args: seq<string>)
    requires dws != []
    ensures |args| == |dws|
  {
    var marked := [Quote + dws[0]] + dws[1..];
    marked[..|marked| - 1] + [marked[|marked| - 1] + Quote]
  }

  /** The quoted words, joined back with spaces, are the description in quotes. */
  lemma QuotedJoin(dws: seq<string>)
    requires dws != []
    ensures Join(QuotedWords(dws), " ") == Quote + Join(dws, " ") + Quote
  {
    var marked := [Quote + dws[0]] + dws[1..];
    var n := |marked|;
    JoinExtendLast(marked[..n - 1], marked[n - 1], Quote, " ");
    assert marked[..n - 1] + [marked[n - 1]] == marked;
    JoinExtendFirst(Quote, dws[0], dws[1..], " ");
    assert [dws[0]] + dws[1..] == dws;
  }

  lemma InnerOfQuoted(d: string)
    ensures Inner(Quote + d + Quote) == d
  {
    var s := Quote + d + Quote;
    assert s == [s[0]] + Inner(s) + [s[|s| - 1]];
    assert s == [s[0]] + d + [s[|s| - 1]];
  }

  lemma QuotedHead(dws: seq<string>)
    requires dws != [] && forall i :: 0 <= i < |dws| ==> IsWord(dws[i]) && '"' !in dws[i]
    ensures StartsWith(QuotedWords(dws)[0], Quote)
    ensures |dws| == 1 ==> QuotedWords(dws)[0] == Quote + dws[0] + Quote
    ensures |dws| > 1 ==> QuotedWords(dws)[0] == Quote + dws[0] && !EndsWith(QuotedWords(dws)[0], Quote)
  {
    var a := QuotedWords(dws)[0];
    assert a[0] == '"';
    if |dws| > 1 {
      assert a[|a| - 1] == dws[0][|dws[0]| - 1];
      assert Quote[0] == '"';
    }
  }

  lemma FirstQuotedAt(args: seq<string>, k: nat)
    requires k < |args| && StartsWith(args[k], Quote)
    requires forall i :: 0 <= i < k ==> !StartsWith(args[i], Quote)
    ensures FirstQuoted(args) == Some(k)
  {
  }

  /**
   * A message `/register i1 .. in "d1 .. dm"` splits back into the interests and
   * the description words joined by single spaces.
   */
  lemma RegisterArgsRoundTrip(interests: seq<string>, dws: seq<string>)
    requires forall i :: 0 <= i < |interests| ==> !StartsWith(interests[i], Quote)
    requires dws != [] && forall i :: 0 <= i < |dws| ==> IsWord(dws[i]) && '"' !in dws[i]
    ensures SplitRegisterArgs(interests + QuotedWords(dws)) == RegisterArgs(interests, Join(dws, " "))
  {
    var args := interests + QuotedWords(dws);
    var k := |interests|;
    QuotedHead(dws);
    assert args[k] == QuotedWords(dws)[0];
    FirstQuotedAt(args, k);
    assert args[..k] == interests;
    if |dws| == 1 {
      InnerOfQuoted(dws[0]);
      assert Join(dws, " ") == dws[0];
    } else {
      assert args[k..] == QuotedWords(dws);
      QuotedJoin(dws);
      InnerOfQuoted(Join(dws, " "));
    }
  }

  /** No interests come out when there are no arguments or the first one is quoted. */
  lemma NoInterests(args: seq<string>)
    requires args == [] || StartsWith(args[0], Quote)
    ensures SplitRegisterArgs(args).interests == []
  {
  }

  const RegisterUsage := "Usage: /register <interests> [\"description\"] (e.g., /register gaming vr \"I enjoy FPS games\")"
  const NeedInterest := "Please provide at least one interest."
  const NoMatchesYet := "No matches found yet. Invite friends to join!"

  /** The answer to a registration; the description is shown as typed, before stripping. */
  function RegisterReply(ra: RegisterArgs, matches: seq<string>): string {
    "Registered interests: " + Join(ra.interests, ", ")
    + (if ra.description != [] then "\nDescription: " + ra.description else "")
    + "\n"
    + (if matches != [] then "Matched users: " + Join(matches, ", ") else NoMatchesYet)
  }

  /**
   * `register`: without interests it only answers how to use it. Otherwise it
   * files the profile under the sender's key and asks `find` (the
   * `find_matches` call on the updated store) for matches; an exception there
   * escapes after the profile is filed.
   */
  function RegisterHandler(user: string, args: seq<string>, s: Store, find: Store -> MatchOutcome): (h: Handled)
    ensures |h.said| <= 1
    ensures SplitRegisterArgs(args).interests == [] ==> h.store == s && h.failure.None? && |h.said| == 1
    ensures SplitRegisterArgs(args).interests != [] ==>
      var ra := SplitRegisterArgs(args);
      && user in h.store.users
      && h.store.users[user] == UserProfile(user, AsSet(ra.interests), Strip(ra.description))
      && h.failure == find(h.store).failure
    ensures SplitRegisterArgs(args).interests != [] ==>
      var ra := SplitRegisterArgs(args);
      && h.store == RegisterUser(s, user, ra.interests, ra.description)
      && (h.failure.None? ==> h.said == [RegisterReply(ra, find(h.store).matches)])
    ensures h.failure.Some? ==> h.said == []
  {
    if args == [] then Handled(s, [RegisterUsage], None)
    else
      var ra := SplitRegisterArgs(args);
      if ra.interests == [] then Handled(s, [NeedInterest], None)
      else
        var filed := RegisterUser(s, user, ra.interests, ra.description);
        var m := find(filed);
        if m.failure.Some? then Handled(filed, [], m.failure)
        else Handled(filed, [RegisterReply(ra, m.matches)], None)
  }

  /** Without an interest, nothing is filed and `find_matches` is not asked: only the usage answer. */
  lemma RegisterWithoutInterests(user: string, args: seq<string>, s: Store, find: Store -> MatchOutcome)
    requires args == [] || StartsWith(args[0], Quote)
    ensures RegisterHandler(user, args, s, find)
         == Handled(s, [if args == [] then RegisterUsage else NeedInterest], None)
  {
    NoInterests(args);
  }

  function RegisterCommand(p: RatePolicy, req: Request, s: Store, now: int, find: Store -> MatchOutcome): (o: Outcome)
    ensures Allowed(p, req, s, now) && SplitRegisterArgs(Args(req.text)).interests == [] ==>
      o.store.users == s.users && Logs(o.trace) == [Logged(UserKey(req), "register", true)]
    ensures Allowed(p, req, s, now) && SplitRegisterArgs(Args(req.text)).interests != [] ==>
      UserKey(req) in o.store.users
      && o.store.users[UserKey(req)].interests == AsSet(SplitRegisterArgs(Args(req.text)).interests)
  {
    var handler := s0 => RegisterHandler(UserKey(req), Args(req.text), s0, find);
    var o := Gate(p, "register", req, s, now, handler);
    if Allowed(p, req, s, now) then
      GateAllowed(p, "register", req, s, now, handler);
      o
    else o
  }

  // ---------------------------------------------------------------- events

  const RegisterFirst := "Please register your interests first with /register"
  const EventsTitle := "Recommended Events:"
  const NoEvents := "Sorry, I couldn't generate event recommendations right now."
  const MoreEventsTitle := "More Recommended Events:"
  const NoMoreEvents := "Sorry, I couldn't generate more event recommendations right now."

  /** `<i>. <name> on <date> (<link>)`. */
  function EventItem(i: int, e: Event): string {
    IntToString(i) + ". " + e.name + " on " + e.date + " (" + e.link + ")"
  }

  /** The events listed from 1. */
  function EventItems(events: seq<Event>): (items: seq<string>)
    ensures |items| == |events|
    ensures forall i :: 0 <= i < |events| ==> items[i] == EventItem(i + 1, events[i])
  {
    seq(|events|, i requires 0 <= i < |events| => EventItem(i + 1, events[i]))
  }

  /** The title and the numbered events, one per line. */
  function EventList(title: string, events: seq<Event>): string {
    Join([title] + EventItems(events), "\n")
  }

  predicate OneLine(e: Event) {
    '\n' !in e.name && '\n' !in e.date && '\n' !in e.link
  }

  lemma EventItemOneLine(i: int, e: Event)
    requires OneLine(e)
    ensures '\n' !in EventItem(i, e)
  {
    IntToStringShape(i);
  }

  /** Each event of the answer gets its own line, after the title, numbered from 1 in order. */
  lemma EventListLines(title: string, events: seq<Event>)
    requires '\n' !in title
    requires forall i :: 0 <= i < |events| ==> OneLine(events[i])
    ensures Split(EventList(title, events), "\n") == [title] + EventItems(events)
  {
    var lines := [title] + EventItems(events);
    forall i | 0 <= i < |lines| ensures "\n"[0] !in lines[i] {
      if i > 0 {
        EventItemOneLine(i, events[i - 1]);
      }
    }
    JoinSplit(lines, "\n");
  }

  /** How the events handlers answer a recommendation. */
  function Present(r: Recommendation, title: string, sorry: string): (h: Handled)
    ensures h.store == r.store && h.failure == r.failure
    ensures r.failure.Some? ==> h.said == []
    ensures r.failure.None? ==> h.said == [if r.events == [] then sorry else EventList(title, r.events)]
  {
    if r.failure.Some? then Handled(r.store, [], r.failure)
    else if r.events == [] then Handled(r.store, [sorry], None)
    else Handled(r.store, [EventList(title, r.events)], None)
  }

  /**
   * `events`: without interests on file it asks the sender to register;
   * otherwise it lists the recommended events, which are exactly the events
   * added to the sender's history.
   */
  function EventsHandler(user: string, s: Store, clock: Clock, complete: Prompt -> Reply): (h: Handled)
    ensures GetProfile(s, user).interests == {} ==> h == Handled(s, [RegisterFirst], None)
    ensures var r := RecommendEvents(GetProfile(s, user), s, clock, complete);
      && h.store.pastEvents == s.pastEvents + Records(GetProfile(s, user).username, r.events, clock)
      && (r.events != [] ==> h.said == [EventList(EventsTitle, r.events)])
    ensures h.store == s.(pastEvents := h.store.pastEvents)
  {
    var profile := GetProfile(s, user);
    if profile.interests == {} then Handled(s, [RegisterFirst], None)
    else Present(RecommendEvents(profile, s, clock, complete), EventsTitle, NoEvents)
  }

  /** `more_events`: as `events`, with the follow-up prompt that lists the recent history. */
  function MoreEventsHandler(user: string, s: Store, clock: Clock, complete: Prompt -> Reply): (h: Handled)
    ensures GetProfile(s, user).interests == {} ==> h == Handled(s, [RegisterFirst], None)
    ensures var r := RecommendMoreEvents(GetProfile(s, user), s, clock, complete);
      && h.store.pastEvents == s.pastEvents + Records(GetProfile(s, user).username, r.events, clock)
      && (r.events != [] ==> h.said == [EventList(MoreEventsTitle, r.events)])
    ensures h.store == s.(pastEvents := h.store.pastEvents)
  {
    var profile := GetProfile(s, user);
    if profile.interests == {} then Handled(s, [RegisterFirst], None)
    else Present(RecommendMoreEvents(profile, s, clock, complete), MoreEventsTitle, NoMoreEvents)
  }

  /**
   * `events` behind the gate, with `now` the reading the gate takes and `clock`
   * the readings the save takes: the audit entry records success exactly when
   * the service answered (or was never asked), and its exception escapes.
   */
  function EventsCommand(p: RatePolicy, req: Request, s: Store, now: int, clock: Clock, complete: Prompt -> Reply): (o: Outcome)
    ensures Allowed(p, req, s, now) ==>
      var profile := GetProfile(s, UserKey(req));
      var r := RecommendEvents(profile, s, clock, complete);
      && Logs(o.trace) == [Logged(UserKey(req), "events", r.failure.None?)]
      && o.failure == (if profile.interests == {} then None else r.failure)
    ensures Allowed(p, req, s, now) && GetProfile(s, UserKey(req)).interests == {} ==>
      Logs(o.trace) == [Logged(UserKey(req), "events", true)] && o.failure.None?
    ensures Allowed(p, req, s, now) && GetProfile(s, UserKey(req)).interests != {} ==>
      var reply := complete(FirstPrompt(GetProfile(s, UserKey(req))));
      && Logs(o.trace) == [Logged(UserKey(req), "events", reply.Text?)]
      && o.failure == (if reply.Raised? then Some(reply.error) else None)
  {
    var handler := s0 => EventsHandler(UserKey(req), s0, clock, complete);
    var o := Gate(p, "events", req, s, now, handler);
    if Allowed(p, req, s, now) then
      GateAllowed(p, "events", req, s, now, handler);
      o
    else o
  }

  /** `more_events` behind the gate, as `EventsCommand` with the follow-up prompt. */
  function MoreEventsCommand(p: RatePolicy, req: Request, s: Store, now: int, clock: Clock, complete: Prompt -> Reply): (o: Outcome)
    ensures Allowed(p, req, s, now) ==>
      var profile := GetProfile(s, UserKey(req));
      var r := RecommendMoreEvents(profile, s, clock, complete);
      && Logs(o.trace) == [Logged(UserKey(req), "more_events", r.failure.None?)]
      && o.failure == (if profile.interests == {} then None else r.failure)
    ensures Allowed(p, req, s, now) && GetProfile(s, UserKey(req)).interests == {} ==>
      Logs(o.trace) == [Logged(UserKey(req), "more_events", true)] && o.failure.None?
    ensures Allowed(p, req, s, now) && GetProfile(s, UserKey(req)).interests != {} ==>
      var reply := complete(FollowUpPrompt(GetProfile(s, UserKey(req)), s));
      && Logs(o.trace) == [Logged(UserKey(req), "more_events", reply.Text?)]
      && o.failure == (if reply.Raised? then Some(reply.error) else None)
  {
    var handler := s0 => MoreEventsHandler(UserKey(req), s0, clock, complete);
    var o := Gate(p, "more_events", req, s, now, handler);
    if Allowed(p, req, s, now) then
      GateAllowed(p, "more_events", req, s, now, handler);
      o
    else o
  }

  // --------------------------------------------------------------- message

  /** `handle_message`: the text goes to the completion service and its answer goes back to the chat. */
  function MessageHandler(text: string, s: Store, complete: Prompt -> Reply): (h: Handled)
    ensures h.store == s
    ensures complete(ChatPrompt(text)).Text? ==> h.said == [complete(ChatPrompt(text)).text] && h.failure.None?
    ensures complete(ChatPrompt(text)).Raised? ==> h.said == [] && h.failure == Some(complete(ChatPrompt(text)).error)
  {
    match complete(ChatPrompt(text))
    case Text(t) => Handled(s, [t], None)
    case Raised(e) => Handled(s, [], Some(e))
  }

  /**
   * Free text behind the gate: the rate check runs under the text's first word
   * without its first character, while the audit entry is always filed under 'message'.
   */
  function MessageCommand(p: RatePolicy, req: Request, s: Store, now: int, complete: Prompt -> Reply): (o: Outcome)
    ensures Allowed(p, req, s, now) ==>
      && o.trace != [] && o.trace[0] == Checked(UserKey(req), CommandName(req.text).value, true)
      && Logs(o.trace) == [Logged(UserKey(req), "message", complete(ChatPrompt(req.text)).Text?)]
      && o.store.requestLogs == s.requestLogs + [LogEntry(UserKey(req), "message", complete(ChatPrompt(req.text)).Text?, now)]
  {
    var handler := s0 => MessageHandler(req.text, s0, complete);
    var o := Gate(p, "message", req, s, now, handler);
    if Allowed(p, req, s, now) then
      GateAllowed(p, "message", req, s, now, handler);
      o
    else o
  }

  /**
   * Free text of single-spaced words is rate-checked under its first word
   * without that word's first character, and logged as 'message'.
   */
  lemma MessageChecksFirstWord(p: RatePolicy, req: Request, s: Store, now: int, complete: Prompt -> Reply,
                               w: string, rest: seq<string>)
    requires IsWord(w) && forall i :: 0 <= i < |rest| ==> IsWord(rest[i])
    requires req.text == Join([w] + rest, " ")
    requires Allowed(p, req, s, now)
    ensures var o := MessageCommand(p, req, s, now, complete);
      && o.trace[0] == Checked(UserKey(req), w[1..], true)
      && Logs(o.trace) == [Logged(UserKey(req), "message", complete(ChatPrompt(req.text)).Text?)]
  {
    CommandWord(w, rest);
  }
}

=== FILE: model.dfy ===
/** The bot's records: user profiles, recommended events and command names. */
module Model {

  /** A user's profile. `interests` is a set, so it never holds an interest twice. */
  datatype UserProfile = UserProfile(username: string, interests: set<string>, description: string)

  /** A profile built without a description gets the default, the empty string. */
  function NewProfile(username: string, interests: set<string>): UserProfile {
    UserProfile(username, interests, "")
  }

  /** One recommended event: three free-text fields; `date` is not checked to be a date. */
  datatype Event = Event(name: string, date: string, link: string)

  /** The command names the bot knows. */
  datatype Command = Start | Help | Events | Register | OpenAi | Message | StoreCmd | Hello

  /** The string each command stands for. */
  function CommandValue(c: Command): (v: string)
    ensures v != [] && forall i :: 0 <= i < |v| ==> 'a' <= v[i] <= 'z'
  {
    match c
    case Start => "start"
    case Help => "help"
    case Events => "events"
    case Register => "register"
    case OpenAi => "openai"
    case Message => "message"
    case StoreCmd => "store"
    case Hello => "hello"
  }

  /** Distinct commands stand for distinct strings, so a name identifies its command. */
  lemma CommandValuesDistinct(c: Command, d: Command)
    ensures CommandValue(c) == CommandValue(d) <==> c == d
  {
    if c != d {
      match c
      case Start => assert CommandValue(c)[0] == 's' && CommandValue(c)[1] == 't';
      case Help => assert CommandValue(c)[0] == 'h' && CommandValue(c)[1] == 'e';
      case Events => assert CommandValue(c)[0] == 'e';
      case Register => assert CommandValue(c)[0] == 'r';
      case OpenAi => assert CommandValue(c)[0] == 'o';
      case Message => assert CommandValue(c)[0] == 'm';
      case StoreCmd => assert CommandValue(c)[0] == 's' && CommandValue(c)[1] == 't' && CommandValue(c)[2] == 'o';
      case Hello => assert CommandValue(c)[0] == 'h' && CommandValue(c)[1] == 'e' && CommandValue(c)[2] == 'l';
    }
  }
}

=== FILE: numbers.dfy ===
/**
 * Decimal digits and integers as the bot reads and writes them: `str.isdigit`
 * on one character, `int(text)` and `str(n)`, restricted to ASCII digits.
 */
module Numbers {
  import opened Wrappers
  import opened Text

  /** `c.isdigit()` for an ASCII character. */
  predicate IsDigit(c: char) {
    '0' <= c <= '9'
  }

  predicate AllDigits(s: string) {
    forall i :: 0 <= i < |s| ==> IsDigit(s[i])
  }

  function DigitValue(c: char): (d: nat)
    requires IsDigit(c)
    ensures d < 10
  {
    (c as int) - ('0' as int)
  }

  function DigitChar(d: nat): (c: char)
    requires d < 10
    ensures IsDigit(c) && DigitValue(c) == d
  {
    (('0' as int) + d) as char
  }

  /** The value of a run of decimal digits, most significant first. */
  function DigitsValue(s: string): nat
    requires AllDigits(s)
  {
    if s == [] then 0 else DigitsValue(s[..|s| - 1]) * 10 + DigitValue(s[|s| - 1])
  }

  /** What `int()` accepts once whitespace is stripped: an optional sign, then one or more digits. */
  predicate IntLiteral(t: string) {
    && t != []
    && if t[0] == '+' || t[0] == '-' then |t| >= 2 && AllDigits(t[1..]) else AllDigits(t)
  }

  /**
   * Python's `int(text)` for base 10: surrounding whitespace is ignored, then an
   * optional sign and at least one digit must make up the rest. `None` stands for
   * the `ValueError` Python raises.
   */
  function ParseInt(text: string): (r: Option<int>)
    ensures r.Some? <==> IntLiteral(Strip(text))
    ensures r.Some? && AllDigits(Strip(text)) ==> r.value == DigitsValue(Strip(text))
  {
    var t := Strip(text);
    if t != [] && (t[0] == '+' || t[0] == '-') then
      var digits := t[1..];
      if digits != [] && AllDigits(digits) then
        var v: int := DigitsValue(digits);
        Some(if t[0] == '-' then -v else v)
      else None
    else if t != [] && AllDigits(t) then Some(DigitsValue(t))
    else None
  }

  /** A character other than a digit anywhere after the optional sign makes `int()` raise. */
  lemma ParseIntStrayCharacter(text: string, i: nat)
    requires i < |Strip(text)| && !IsDigit(Strip(text)[i])
    requires i > 0 || (Strip(text)[0] != '+' && Strip(text)[0] != '-')
    ensures ParseInt(text) == None
  {
    var t := Strip(text);
    if i > 0 && (t[0] == '+' || t[0] == '-') {
      assert t[1..][i - 1] == t[i];
    }
  }

  /** A spelled-out number is not an integer to `int()`. */
  lemma ExampleWordIsNotInt()
    ensures ParseInt("two") == None
  {
    assert Stripped("two");
    ParseIntStrayCharacter("two", 0);
  }

  /** Python's `str(n)` for a natural number. */
  function NatToString(n: nat): (s: string)
    ensures s != [] && AllDigits(s) && DigitsValue(s) == n
  {
    if n < 10 then [DigitChar(n)]
    else
      var s := NatToString(n / 10) + [DigitChar(n % 10)];
      assert s[..|s| - 1] == NatToString(n / 10);
      s
  }

  /** Python's `str(n)`. */
  function IntToString(n: int): string {
    if n < 0 then "-" + NatToString(-n) else NatToString(n)
  }

  /** `int(str(n)) == n`: reading back a written integer gives the integer. */
  lemma ParseIntRoundTrip(n: int)
    ensures ParseInt(IntToString(n)) == Some(n)
  {
    var s := IntToString(n);
    var digits := NatToString(if n < 0 then -n else n);
    assert Stripped(s);
    if n < 0 {
      assert s[1..] == digits;
    } else {
      assert s[0] != '+' && s[0] != '-';
    }
  }
}

=== FILE: repository.dfy ===
/**
 * The bot's Firestore collections held in memory, with the repository's
 * operations over them. Clock readings are passed in as `now`, counted in
 * microseconds; a write never fails.
 */
module Repository {
  import opened Wrappers
  import opened Model
  import opened Seqs

  const Second: int := 1_000_000
  const OneMinute: int := 60 * Second

  /** A Firestore field value, as far as the bot stores them. */
  datatype Value = Str(s: string) | Time(t: int) | Flag(b: bool)

  /** A request_logs document: fields by name, whatever names the writer chose. */
  type LogDoc = map<string, Value>

  /** A past_events document: its owner, the event (kept as JSON text in Firestore) and the save time. */
  datatype EventRecord = EventRecord(user: string, content: Event, timestamp: int)

  /** A rate_limits document, filed under the counted keyword. */
  datatype Counter = Counter(timestamp: int, count: int)

  /** The four collections: users, past_events, request_logs and rate_limits. */
  datatype Store = Store(
    users: map<string, UserProfile>,
    pastEvents: seq<EventRecord>,
    requestLogs: seq<LogDoc>,
    rateLimits: map<string, Counter>)

  /** Every profile is filed under its own username, as `SaveUser` files it. */
  predicate WellKeyed(s: Store) {
    forall k :: k in s.users ==> s.users[k].username == k
  }

  /** `save_user`: file the profile under its username, replacing any earlier one. */
  function SaveUser(s: Store, p: UserProfile): (s': Store)
    ensures p.username in s'.users && s'.users[p.username] == p
    ensures forall k :: k != p.username ==> (k in s'.users <==> k in s.users)
    ensures forall k :: k in s.users && k != p.username ==> s'.users[k] == s.users[k]
    ensures WellKeyed(s) ==> WellKeyed(s')
    ensures s'.pastEvents == s.pastEvents && s'.requestLogs == s.requestLogs && s'.rateLimits == s.rateLimits
  {
    s.(users := s.users[p.username := p])
  }

  /** `get_user`: the profile filed under `name`, or `None` when there is no such document. */
  function GetUser(s: Store, name: string): (r: Option<UserProfile>)
    ensures r.Some? <==> name in s.users
    ensures r.Some? ==> r.value == s.users[name]
  {
    if name in s.users then Some(s.users[name]) else None
  }

  // ---------------------------------------------------------------- history

  /**
   * The clock as `save_events` reads it: `clock(i)` is the time stamped on the
   * i-th event of a batch, since the bot takes a fresh reading for every event.
   */
  type Clock = nat -> int

  /** The readings of a batch of `n` events move strictly forward. */
  predicate Ticking(clock: Clock, n: nat) {
    forall i, j :: 0 <= i < j < n ==> clock(i) < clock(j)
  }

  function Records(username: string, events: seq<Event>, clock: Clock): (rs: seq<EventRecord>)
    ensures |rs| == |events|
    ensures forall i :: 0 <= i < |rs| ==> rs[i] == EventRecord(username, events[i], clock(i))
  {
    seq(|events|, i requires 0 <= i < |events| => EventRecord(username, events[i], clock(i)))
  }

  /** `save_events`: one new past_events document per event, each tagged with `username` and its own clock reading. */
  function SaveEvents(s: Store, username: string, events: seq<Event>, clock: Clock): (s': Store)
    ensures |s'.pastEvents| == |s.pastEvents| + |events|
    ensures s'.pastEvents[..|s.pastEvents|] == s.pastEvents
    ensures forall i :: 0 <= i < |events| ==>
      s'.pastEvents[|s.pastEvents| + i] == EventRecord(username, events[i], clock(i))
    ensures s'.users == s.users && s'.requestLogs == s.requestLogs && s'.rateLimits == s.rateLimits
  {
    s.(pastEvents := s.pastEvents + Records(username, events, clock))
  }

  /** The records whose `user` field is `username`, in store order. */
  function OwnedBy(rs: seq<EventRecord>, username: string): (r: seq<EventRecord>)
    ensures |r| <= |rs|
    ensures forall i :: 0 <= i < |r| ==> r[i].user == username && r[i] in rs
    ensures forall x :: x in rs && x.user == username ==> x in r
  {
    if rs == [] then []
    else
      var rest := OwnedBy(rs[1..], username);
      assert forall x :: x in rs[1..] ==> x in rs;
      assert forall x :: x in rs ==> x == rs[0] || x in rs[1..];
      (if rs[0].user == username then [rs[0]] else []) + rest
  }

  lemma {:induction false} OwnedByAppend(a: seq<EventRecord>, b: seq<EventRecord>, username: string)
    ensures OwnedBy(a + b, username) == OwnedBy(a, username) + OwnedBy(b, username)
    decreases |a|
  {
    if a == [] {
      assert a + b == b;
    } else {
      assert (a + b)[1..] == a[1..] + b;
      OwnedByAppend(a[1..], b, username);
    }
  }

  lemma {:induction false} OwnedByAll(rs: seq<EventRecord>, username: string)
    requires forall i :: 0 <= i < |rs| ==> rs[i].user == username
    ensures OwnedBy(rs, username) == rs
    decreases |rs|
  {
    if rs != [] {
      OwnedByAll(rs[1..], username);
      assert rs == [rs[0]] + rs[1..];
    }
  }

  /** Ordered as Firestore's `order_by('timestamp', direction='DESCENDING')` returns documents. */
  predicate SortedNewest(rs: seq<EventRecord>) {
    forall i, j :: 0 <= i < j < |rs| ==> rs[i].timestamp >= rs[j].timestamp
  }

  /** Place `x` before the first record that is not newer than it. */
  function InsertNewest(x: EventRecord, rs: seq<EventRecord>): (r: seq<EventRecord>)
    ensures |r| == |rs| + 1
    ensures multiset(r) == multiset(rs) + multiset{x}
    ensures r[0] == x || (rs != [] && r[0] == rs[0])
  {
    if rs == [] || x.timestamp >= rs[0].timestamp then [x] + rs
    else
      var tail := InsertNewest(x, rs[1..]);
      assert rs == [rs[0]] + rs[1..];
      [rs[0]] + tail
  }

  lemma {:induction false} InsertKeepsOrder(x: EventRecord, rs: seq<EventRecord>)
    requires SortedNewest(rs)
    ensures SortedNewest(InsertNewest(x, rs))
    decreases |rs|
  {
    if rs == [] || x.timestamp >= rs[0].timestamp {
      var r := [x] + rs;
      forall i, j | 0 <= i < j < |r| ensures r[i].timestamp >= r[j].timestamp {
        assert r[j] == rs[j - 1];
        if i > 0 {
          assert r[i] == rs[i - 1];
        } else if j > 1 {
          assert rs[0].timestamp >= rs[j - 1].timestamp;
        }
      }
    } else {
      var rest := rs[1..];
      assert SortedNewest(rest) by {
        forall i, j | 0 <= i < j < |rest| ensures rest[i].timestamp >= rest[j].timestamp {
          assert rest[i] == rs[i + 1] && rest[j] == rs[j + 1];
        }
      }
      InsertKeepsOrder(x, rest);
      var tail := InsertNewest(x, rest);
      var r := [rs[0]] + tail;
      assert r == InsertNewest(x, rs);
      assert rs[0].timestamp >= tail[0].timestamp by {
        if tail[0] != x {
          assert tail[0] == rs[1];
        }
      }
      forall i, j | 0 <= i < j < |r| ensures r[i].timestamp >= r[j].timestamp {
        assert r[j] == tail[j - 1];
        if i > 0 {
          assert r[i] == tail[i - 1];
        } else if j > 1 {
          assert tail[0].timestamp >= tail[j - 1].timestamp;
        }
      }
    }
  }

  /**
   * Newest first. Records with equal timestamps keep their store order;
   * Firestore breaks such ties by document id, which the bot leaves to chance.
   */
  function SortNewest(rs: seq<EventRecord>): (r: seq<EventRecord>)
    ensures SortedNewest(r)
    ensures |r| == |rs|
    ensures multiset(r) == multiset(rs)
  {
    if rs == [] then []
    else
      assert rs == [rs[0]] + rs[1..];
      var sorted := SortNewest(rs[1..]);
      InsertKeepsOrder(rs[0], sorted);
      InsertNewest(rs[0], sorted)
  }

  /** Firestore's `.limit(n)`: the first `n` documents, or all of them when there are fewer. */
  function Take<T>(xs: seq<T>, n: nat): (r: seq<T>)
    ensures |r| == if n <= |xs| then n else |xs|
    ensures r == xs[..|r|]
  {
    if n <= |xs| then xs[..n] else xs
  }

  /** A prefix holds each element at most as often as the whole sequence. */
  lemma PrefixMultiset<T>(xs: seq<T>, k: nat)
    requires k <= |xs|
    ensures multiset(xs[..k]) <= multiset(xs)
  {
    assert xs == xs[..k] + xs[k..];
  }

  lemma TakeAll<T>(xs: seq<T>, n: nat)
    requires |xs| <= n
    ensures Take(xs, n) == xs
  {
  }

  lemma SortedMember(rs: seq<EventRecord>, x: EventRecord)
    requires x in SortNewest(rs)
    ensures x in rs
  {
    assert x in multiset(SortNewest(rs));
  }

  lemma MemberSorted(rs: seq<EventRecord>, x: EventRecord)
    requires x in rs
    ensures x in SortNewest(rs)
  {
    assert x in multiset(rs);
  }

  lemma PrefixKeepsOrder(rs: seq<EventRecord>, n: nat)
    requires SortedNewest(rs) && n <= |rs|
    ensures SortedNewest(rs[..n])
  {
    var p := rs[..n];
    forall i, j | 0 <= i < j < |p| ensures p[i].timestamp >= p[j].timestamp {
      assert p[i] == rs[i] && p[j] == rs[j];
    }
  }

  /** The past_events query of `get_past_events`: this user's documents, newest first, at most `limit`. */
  function PastRecords(s: Store, username: string, limit: nat): (r: seq<EventRecord>)
    ensures |r| <= limit
    ensures SortedNewest(r)
    ensures forall i :: 0 <= i < |r| ==> r[i].user == username && r[i] in s.pastEvents
    ensures multiset(r) <= multiset(OwnedBy(s.pastEvents, username))
  {
    var owned := OwnedBy(s.pastEvents, username);
    var sorted := SortNewest(owned);
    var r := Take(sorted, limit);
    PrefixKeepsOrder(sorted, |r|);
    PrefixMultiset(sorted, |r|);
    forall i | 0 <= i < |r| ensures r[i].user == username && r[i] in s.pastEvents {
      SortedMember(owned, sorted[i]);
    }
    r
  }

  /**
   * The history query keeps the newest of the user's records: when it returns
   * fewer than `limit` it returns all of them, and any record it leaves out is
   * no newer than the last one it returns.
   */
  lemma PastRecordsAreNewest(s: Store, username: string, limit: nat, x: EventRecord)
    requires x in s.pastEvents && x.user == username
    ensures var r := PastRecords(s, username, limit);
      (|r| < limit ==> x in r) && (|r| > 0 && x.timestamp > r[|r| - 1].timestamp ==> x in r)
  {
    var owned := OwnedBy(s.pastEvents, username);
    var sorted := SortNewest(owned);
    var r := PastRecords(s, username, limit);
    assert r == Take(sorted, limit);
    MemberSorted(owned, x);
    var j :| 0 <= j < |sorted| && sorted[j] == x;
    if |r| < limit {
      assert r == sorted;
    }
    if |r| > 0 && x.timestamp > r[|r| - 1].timestamp {
      assert r[j] == x;
    }
  }

  /** The events the documents carry, in document order. */
  function Contents(rs: seq<EventRecord>): (es: seq<Event>)
    ensures |es| == |rs|
    ensures forall i :: 0 <= i < |rs| ==> es[i] == rs[i].content
  {
    seq(|rs|, i requires 0 <= i < |rs| => rs[i].content)
  }

  /** `get_past_events`: the events of `PastRecords`, decoded from their documents. */
  function GetPastEvents(s: Store, username: string, limit: nat): (r: seq<Event>)
    ensures |r| <= limit
  {
    Contents(PastRecords(s, username, limit))
  }

  /** A record older than everything in `newer` passes over all of it when inserted. */
  lemma ConsAppend<T>(xs: seq<T>, ys: seq<T>)
    requires xs != []
    ensures (xs + ys)[0] == xs[0] && (xs + ys)[1..] == xs[1..] + ys
    ensures [xs[0]] + (xs[1..] + ys) == xs + ys
  {
    assert xs == [xs[0]] + xs[1..];
  }

  lemma {:induction false} InsertPastNewer(x: EventRecord, newer: seq<EventRecord>, rest: seq<EventRecord>)
    requires forall i :: 0 <= i < |newer| ==> x.timestamp < newer[i].timestamp
    ensures InsertNewest(x, newer + rest) == newer + InsertNewest(x, rest)
    decreases |newer|
  {
    if newer == [] {
      assert newer + rest == rest;
    } else {
      var nr := newer + rest;
      ConsAppend(newer, rest);
      assert InsertNewest(x, nr) == [newer[0]] + InsertNewest(x, newer[1..] + rest);
      InsertPastNewer(x, newer[1..], rest);
      ConsAppend(newer, InsertNewest(x, rest));
    }
  }

  /** Timestamps that rise strictly along the sequence. */
  predicate Rising(rs: seq<EventRecord>) {
    forall i, j :: 0 <= i < j < |rs| ==> rs[i].timestamp < rs[j].timestamp
  }

  lemma RisingTail(rs: seq<EventRecord>)
    requires rs != [] && Rising(rs)
    ensures Rising(rs[1..])
    ensures forall i :: 0 <= i < |Reverse(rs[1..])| ==> rs[0].timestamp < Reverse(rs[1..])[i].timestamp
  {
    var rest := rs[1..];
    forall i, j | 0 <= i < j < |rest| ensures rest[i].timestamp < rest[j].timestamp {
      assert rest[i] == rs[i + 1] && rest[j] == rs[j + 1];
    }
    var back := Reverse(rest);
    forall i | 0 <= i < |back| ensures rs[0].timestamp < back[i].timestamp {
      ReverseAt(rest, i);
      assert back[i] == rs[|rest| - i];
    }
  }

  /** Records saved oldest first come out of the newest-first order back to front. */
  lemma {:induction false} SortRising(rs: seq<EventRecord>)
    requires Rising(rs)
    ensures SortNewest(rs) == Reverse(rs)
    decreases |rs|
  {
    if rs != [] {
      var rest := rs[1..];
      RisingTail(rs);
      SortRising(rest);
      InsertPastNewer(rs[0], Reverse(rest), []);
      assert Reverse(rest) + [] == Reverse(rest);
      assert SortNewest(rs) == InsertNewest(rs[0], SortNewest(rest));
    }
  }

  /** A rising batch, newer than every older record, sorts ahead of them, newest first. */
  lemma {:induction false} SortOlderThenNewer(older: seq<EventRecord>, newer: seq<EventRecord>)
    requires Rising(newer)
    requires forall i, j :: 0 <= i < |older| && 0 <= j < |newer| ==> older[i].timestamp < newer[j].timestamp
    ensures SortNewest(older + newer) == Reverse(newer) + SortNewest(older)
    decreases |older|
  {
    if older == [] {
      assert older + newer == newer;
      SortRising(newer);
    } else {
      var o := older + newer;
      assert o[0] == older[0];
      assert o[1..] == older[1..] + newer;
      SortOlderThenNewer(older[1..], newer);
      var back := Reverse(newer);
      forall i | 0 <= i < |back| ensures older[0].timestamp < back[i].timestamp {
        ReverseAt(newer, i);
      }
      InsertPastNewer(older[0], back, SortNewest(older[1..]));
    }
  }

  /** Appending a batch of the user's records puts it after the user's earlier records. */
  lemma OwnedAfterAppend(rs: seq<EventRecord>, username: string, events: seq<Event>, clock: Clock)
    ensures OwnedBy(rs + Records(username, events, clock), username) == OwnedBy(rs, username) + Records(username, events, clock)
  {
    OwnedByAppend(rs, Records(username, events, clock), username);
    OwnedByAll(Records(username, events, clock), username);
  }

  lemma OwnedOlder(rs: seq<EventRecord>, username: string, t: int)
    requires forall i :: 0 <= i < |rs| && rs[i].user == username ==> rs[i].timestamp < t
    ensures forall i :: 0 <= i < |OwnedBy(rs, username)| ==> OwnedBy(rs, username)[i].timestamp < t
  {
    var older := OwnedBy(rs, username);
    forall i | 0 <= i < |older| ensures older[i].timestamp < t {
      var j :| 0 <= j < |rs| && rs[j] == older[i];
    }
  }

  /** A batch stamped by forward-moving readings is rising, and newer than anything older than its first reading. */
  lemma BatchAfterOlder(older: seq<EventRecord>, username: string, events: seq<Event>, clock: Clock)
    requires Ticking(clock, |events|)
    requires forall i :: 0 <= i < |older| ==> older[i].timestamp < clock(0)
    ensures Rising(Records(username, events, clock))
    ensures forall i, j :: 0 <= i < |older| && 0 <= j < |events| ==>
      older[i].timestamp < Records(username, events, clock)[j].timestamp
  {
    var batch := Records(username, events, clock);
    forall i, j | 0 <= i < |older| && 0 <= j < |events| ensures older[i].timestamp < batch[j].timestamp {
      assert j > 0 ==> clock(0) < clock(j);
    }
  }

  /** The user's records after a save: the earlier ones, then the batch. */
  lemma OwnedAfterSave(s: Store, username: string, events: seq<Event>, clock: Clock)
    ensures OwnedBy(SaveEvents(s, username, events, clock).pastEvents, username)
         == OwnedBy(s.pastEvents, username) + Records(username, events, clock)
  {
    OwnedAfterAppend(s.pastEvents, username, events, clock);
  }

  /** The user's records once a rising batch, newer than all of them, is appended, sorted newest first. */
  lemma SortAfterBatch(rs: seq<EventRecord>, username: string, events: seq<Event>, clock: Clock)
    requires Ticking(clock, |events|)
    requires forall i :: 0 <= i < |rs| && rs[i].user == username ==> rs[i].timestamp < clock(0)
    ensures SortNewest(OwnedBy(rs + Records(username, events, clock), username))
         == Reverse(Records(username, events, clock)) + SortNewest(OwnedBy(rs, username))
  {
    var batch := Records(username, events, clock);
    var older := OwnedBy(rs, username);
    OwnedAfterAppend(rs, username, events, clock);
    OwnedOlder(rs, username, clock(0));
    BatchAfterOlder(older, username, events, clock);
    SortOlderThenNewer(older, batch);
  }

  /**
   * After a save whose readings move forward from a time later than the user's
   * earlier records, the history query reads the new batch first, newest (last
   * saved) first, then the older history.
   */
  lemma PastRecordsAfterSave(s: Store, username: string, events: seq<Event>, clock: Clock, limit: nat)
    requires Ticking(clock, |events|)
    requires forall i :: 0 <= i < |s.pastEvents| && s.pastEvents[i].user == username ==> s.pastEvents[i].timestamp < clock(0)
    ensures PastRecords(SaveEvents(s, username, events, clock), username, limit)
         == Take(Reverse(Records(username, events, clock)) + SortNewest(OwnedBy(s.pastEvents, username)), limit)
  {
    SortAfterBatch(s.pastEvents, username, events, clock);
    assert SaveEvents(s, username, events, clock).pastEvents == s.pastEvents + Records(username, events, clock);
  }

  /** The reversed batch carries the reversed events. */
  lemma ContentsOfReversedBatch(username: string, events: seq<Event>, clock: Clock)
    ensures Contents(Reverse(Records(username, events, clock))) == Reverse(events)
  {
    var batch := Records(username, events, clock);
    var back := Contents(Reverse(batch));
    forall i | 0 <= i < |events| ensures back[i] == Reverse(events)[i] {
      ReverseAt(batch, i);
      ReverseAt(events, i);
    }
  }

  /** Reading the contents of the first `n` records is taking the first `n` contents. */
  lemma ContentsTake(rs: seq<EventRecord>, n: nat)
    ensures Contents(Take(rs, n)) == Take(Contents(rs), n)
  {
  }

  /** A limit no longer than the front part never reaches the back part. */
  lemma TakeFront<T>(front: seq<T>, back: seq<T>, n: nat)
    requires n <= |front|
    ensures Take(front + back, n) == Take(front, n)
  {
    assert (front + back)[..n] == front[..n];
  }

  /**
   * Saving a batch and reading that many of the user's past events back gives
   * the batch, field for field, last saved first, when the readings move forward
   * from a time later than the user's earlier history.
   */
  lemma SaveThenReadHistory(s: Store, username: string, events: seq<Event>, clock: Clock)
    requires Ticking(clock, |events|)
    requires forall i :: 0 <= i < |s.pastEvents| && s.pastEvents[i].user == username ==> s.pastEvents[i].timestamp < clock(0)
    ensures GetPastEvents(SaveEvents(s, username, events, clock), username, |events|) == Reverse(events)
  {
    var back := Reverse(Records(username, events, clock));
    PastRecordsAfterSave(s, username, events, clock, |events|);
    TakeFront(back, SortNewest(OwnedBy(s.pastEvents, username)), |events|);
    assert Take(back, |events|) == back;
    ContentsOfReversedBatch(username, events, clock);
  }

  /** A user with no saved records has no past events. */
  lemma NoRecordsNoHistory(s: Store, username: string, limit: nat)
    requires forall i :: 0 <= i < |s.pastEvents| ==> s.pastEvents[i].user != username
    ensures OwnedBy(s.pastEvents, username) == []
    ensures GetPastEvents(s, username, limit) == []
  {
  }

  /**
   * For a user with no earlier history, a store whose past_events grew by one
   * batch saved with forward-moving readings reads back the `limit` last saved
   * events of that batch, last saved first.
   */
  lemma HistoryAfterFirstSave(s: Store, s': Store, username: string, events: seq<Event>, clock: Clock, limit: nat)
    requires forall i :: 0 <= i < |s.pastEvents| ==> s.pastEvents[i].user != username
    requires s'.pastEvents == s.pastEvents + Records(username, events, clock)
    requires Ticking(clock, |events|)
    ensures GetPastEvents(s', username, limit) == Take(Reverse(events), limit)
  {
    var back := Reverse(Records(username, events, clock));
    NoRecordsNoHistory(s, username, limit);
    PastRecordsAfterSave(s, username, events, clock, limit);
    assert SaveEvents(s, username, events, clock).pastEvents == s'.pastEvents;
    assert back + SortNewest([]) == back;
    ContentsTake(back, limit);
    ContentsOfReversedBatch(username, events, clock);
  }

  /** A user's first batch is all the history the query sorts. */
  lemma PastRecordsOfFirstSave(s: Store, username: string, events: seq<Event>, clock: Clock, limit: nat)
    requires forall i :: 0 <= i < |s.pastEvents| ==> s.pastEvents[i].user != username
    ensures PastRecords(SaveEvents(s, username, events, clock), username, limit)
         == Take(SortNewest(Records(username, events, clock)), limit)
  {
    NoRecordsNoHistory(s, username, limit);
    OwnedAfterSave(s, username, events, clock);
    assert [] + Records(username, events, clock) == Records(username, events, clock);
  }

  /** A limit at least as long as the records keeps all of them. */
  lemma TakeAllSorted(rs: seq<EventRecord>, limit: nat)
    requires |rs| <= limit
    ensures multiset(Take(SortNewest(rs), limit)) == multiset(rs)
  {
    TakeAll(SortNewest(rs), limit);
  }

  /**
   * Whatever the readings, equal ones included, a user's first batch of at most
   * `limit` events comes back from the history query as the same records, in
   * some order.
   */
  lemma FirstSaveKeepsBatch(s: Store, username: string, events: seq<Event>, clock: Clock, limit: nat)
    requires forall i :: 0 <= i < |s.pastEvents| ==> s.pastEvents[i].user != username
    requires |events| <= limit
    ensures multiset(PastRecords(SaveEvents(s, username, events, clock), username, limit))
         == multiset(Records(username, events, clock))
  {
    PastRecordsOfFirstSave(s, username, events, clock, limit);
    TakeAllSorted(Records(username, events, clock), limit);
  }


  // -------------------------------------------------------------- counters

  datatype IncrResult = IncrResult(store: Store, count: int)

  /** `incr`: stamp the keyword's counter with `now`, add one to it and read it back. */
  function Incr(s: Store, key: string, now: int): (r: IncrResult)
    ensures r.count == (if key in s.rateLimits then s.rateLimits[key].count else 0) + 1
    ensures key in r.store.rateLimits && r.store.rateLimits[key] == Counter(now, r.count)
    ensures forall k :: k != key ==> (k in r.store.rateLimits <==> k in s.rateLimits)
    ensures forall k :: k != key && k in s.rateLimits ==> r.store.rateLimits[k] == s.rateLimits[k]
    ensures r.store.users == s.users && r.store.pastEvents == s.pastEvents && r.store.requestLogs == s.requestLogs
  {
    var before := if key in s.rateLimits then s.rateLimits[key].count else 0;
    var c := Counter(now, before + 1);
    IncrResult(s.(rateLimits := s.rateLimits[key := c]), c.count)
  }

  // ----------------------------------------------------- request log / rate

  /** The document `log_request` adds: note the field is called 'username'. */
  function LogEntry(username: string, command: string, success: bool, now: int): LogDoc {
    map["timestamp" := Time(now), "username" := Str(username), "command" := Str(command), "success" := Flag(success)]
  }

  /** `log_request`: add one document to request_logs and touch nothing else. */
  function LogRequest(s: Store, username: string, command: string, success: bool, now: int): (s': Store)
    ensures |s'.requestLogs| == |s.requestLogs| + 1
    ensures s'.requestLogs[..|s.requestLogs|] == s.requestLogs
    ensures s'.requestLogs[|s.requestLogs|] == LogEntry(username, command, success, now)
    ensures s'.users == s.users && s'.pastEvents == s.pastEvents && s'.rateLimits == s.rateLimits
  {
    s.(requestLogs := s.requestLogs + [LogEntry(username, command, success, now)])
  }

  /**
   * How a rate check counts: the field that must hold the username, the
   * query's `.limit`, if there is one, and the count at which requests are refused.
   */
  datatype RatePolicy = RatePolicy(userField: string, cap: Option<nat>, ceiling: nat)

  /** `check_rate_limit` as written: field 'user', `.limit(10)`, refuse at 30. */
  const SourcePolicy := RatePolicy("user", Some(10), 30)

  /** The evident intent: count the documents `log_request` writes, all of them, refuse at 30. */
  const IntendedPolicy := RatePolicy("username", None, 30)

  /** A document the rate query matches: the user field holds `username`, stamped within the last minute. */
  predicate Recent(p: RatePolicy, doc: LogDoc, username: string, now: int) {
    && p.userField in doc && doc[p.userField] == Str(username)
    && "timestamp" in doc && doc["timestamp"].Time?
    && doc["timestamp"].t >= now - OneMinute
  }

  function RecentLogs(p: RatePolicy, logs: seq<LogDoc>, username: string, now: int): (r: seq<LogDoc>)
    ensures |r| <= |logs|
    ensures forall i :: 0 <= i < |r| ==> Recent(p, r[i], username, now)
  {
    if logs == [] then []
    else (if Recent(p, logs[0], username, now) then [logs[0]] else []) + RecentLogs(p, logs[1..], username, now)
  }

  /** How many documents the query streams back; its newest-first order does not change the number. */
  function RecentCount(p: RatePolicy, s: Store, username: string, now: int): (n: nat)
    ensures n <= |RecentLogs(p, s.requestLogs, username, now)|
    ensures p.cap.None? ==> n == |RecentLogs(p, s.requestLogs, username, now)|
    ensures p.cap.Some? ==> n <= p.cap.value
    ensures p.cap.Some? && |RecentLogs(p, s.requestLogs, username, now)| <= p.cap.value ==>
      n == |RecentLogs(p, s.requestLogs, username, now)|
  {
    var n := |RecentLogs(p, s.requestLogs, username, now)|;
    match p.cap
    case Some(c) => if n < c then n else c
    case None => n
  }

  /** `check_rate_limit`: false exactly when the counted documents reach the ceiling. `cmd` is not consulted. */
  function CheckRateLimit(p: RatePolicy, s: Store, username: string, cmd: string, now: int): (r: bool)
    ensures p.cap.None? ==> (r <==> |RecentLogs(p, s.requestLogs, username, now)| < p.ceiling)
    ensures p.cap.Some? && p.cap.value < p.ceiling ==> r
    ensures p.cap.Some? && p.ceiling <= p.cap.value ==>
      (r <==> |RecentLogs(p, s.requestLogs, username, now)| < p.ceiling)
  {
    !(RecentCount(p, s, username, now) >= p.ceiling)
  }

  lemma {:induction false} RecentLogsAppend(p: RatePolicy, logs: seq<LogDoc>, doc: LogDoc, username: string, now: int)
    ensures RecentLogs(p, logs + [doc], username, now)
      == RecentLogs(p, logs, username, now) + (if Recent(p, doc, username, now) then [doc] else [])
    decreases |logs|
  {
    if logs == [] {
      assert logs + [doc] == [doc];
    } else {
      assert (logs + [doc])[1..] == logs[1..] + [doc];
      RecentLogsAppend(p, logs[1..], doc, username, now);
    }
  }

  /** With the bot's `.limit(10)` below the ceiling of 30, the check never refuses. */
  lemma SourceCheckAlwaysAllows(s: Store, username: string, cmd: string, now: int)
    ensures CheckRateLimit(SourcePolicy, s, username, cmd, now)
  {
  }

  /** The bot's query filters on 'user', which `log_request` never writes: logging a request never changes any count. */
  lemma LoggedRequestsNeverCounted(s: Store, who: string, command: string, success: bool, t: int, username: string, now: int)
    ensures RecentCount(SourcePolicy, LogRequest(s, who, command, success, t), username, now)
         == RecentCount(SourcePolicy, s, username, now)
  {
    RecentLogsAppend(SourcePolicy, s.requestLogs, LogEntry(who, command, success, t), username, now);
  }

  /** Under the intended policy each logged request within the last minute counts once. */
  lemma IntendedCountsLoggedRequests(s: Store, username: string, command: string, success: bool, t: int, now: int)
    requires now - OneMinute <= t
    ensures RecentCount(IntendedPolicy, LogRequest(s, username, command, success, t), username, now)
         == RecentCount(IntendedPolicy, s, username, now) + 1
  {
    RecentLogsAppend(IntendedPolicy, s.requestLogs, LogEntry(username, command, success, t), username, now);
  }

  /** The window is inclusive: a request exactly one minute old still counts, one a microsecond older does not. */
  lemma WindowIsInclusive(username: string, command: string, success: bool, now: int)
    ensures Recent(IntendedPolicy, LogEntry(username, command, success, now - OneMinute), username, now)
    ensures !Recent(IntendedPolicy, LogEntry(username, command, success, now - OneMinute - 1), username, now)
  {
  }

  /** Under the intended policy 29 recent requests still pass and the 30th recent request makes the next check refuse. */
  lemma IntendedBoundary(s: Store, username: string, command: string, success: bool, cmd: string, now: int)
    requires RecentCount(IntendedPolicy, s, username, now) == 29
    ensures CheckRateLimit(IntendedPolicy, s, username, cmd, now)
    ensures !CheckRateLimit(IntendedPolicy, LogRequest(s, username, command, success, now), username, cmd, now)
  {
    IntendedCountsLoggedRequests(s, username, command, success, now, now);
  }
}

=== FILE: seqs.dfy ===
/** Sequence operations shared by the readers of the completion service's answers. */
module Seqs {
  import opened Wrappers

  /**
   * The values `f` yields, in the order of `xs`; elements where it yields
   * nothing are dropped. Python's `[y for x in xs if (y := f(x)) is not None]`.
   */
  function FilterMap<A, B>(xs: seq<A>, f: A -> Option<B>): (ys: seq<B>)
    ensures |ys| <= |xs|
  {
    if xs == [] then []
    else
      match f(xs[0])
      case Some(y) => [y] + FilterMap(xs[1..], f)
      case None => FilterMap(xs[1..], f)
  }

  /** An element contributes its value, or nothing, in front of what the rest gives. */
  lemma FilterMapCons<A, B>(x: A, rest: seq<A>, f: A -> Option<B>)
    ensures FilterMap([x] + rest, f)
         == (match f(x) case Some(y) => [y] case None => []) + FilterMap(rest, f)
  {
    assert ([x] + rest)[0] == x;
    assert ([x] + rest)[1..] == rest;
  }

  /** Reading is element by element: `a + b` gives what `a` gives followed by what `b` gives. */
  lemma {:induction false} FilterMapAppend<A, B>(a: seq<A>, b: seq<A>, f: A -> Option<B>)
    ensures FilterMap(a + b, f) == FilterMap(a, f) + FilterMap(b, f)
    decreases |a|
  {
    if a == [] {
      assert a + b == b;
    } else {
      assert a + b == [a[0]] + (a[1..] + b);
      assert a == [a[0]] + a[1..];
      FilterMapCons(a[0], a[1..] + b, f);
      FilterMapCons(a[0], a[1..], f);
      FilterMapAppend(a[1..], b, f);
    }
  }

  /** When every element yields a value, the result is exactly those values, in order. */
  lemma {:induction false} FilterMapAll<A, B>(xs: seq<A>, ys: seq<B>, f: A -> Option<B>)
    requires |xs| == |ys|
    requires forall i :: 0 <= i < |xs| ==> f(xs[i]) == Some(ys[i])
    ensures FilterMap(xs, f) == ys
    decreases |xs|
  {
    if xs != [] {
      FilterMapAll(xs[1..], ys[1..], f);
      assert ys == [ys[0]] + ys[1..];
    }
  }

  /** Elements that all yield nothing give nothing. */
  lemma {:induction false} FilterMapNone<A, B>(xs: seq<A>, f: A -> Option<B>)
    requires forall i :: 0 <= i < |xs| ==> f(xs[i]).None?
    ensures FilterMap(xs, f) == []
    decreases |xs|
  {
    if xs != [] {
      FilterMapNone(xs[1..], f);
    }
  }

  /** `xs` back to front. */
  function Reverse<T>(xs: seq<T>): (r: seq<T>)
    ensures |r| == |xs|
  {
    if xs == [] then [] else Reverse(xs[1..]) + [xs[0]]
  }

  /** Position `i` of the reversal holds position `|xs| - 1 - i` of the original. */
  lemma {:induction false} ReverseAt<T>(xs: seq<T>, i: nat)
    requires i < |xs|
    ensures Reverse(xs)[i] == xs[|xs| - 1 - i]
    decreases |xs|
  {
    if i < |xs| - 1 {
      ReverseAt(xs[1..], i);
    }
  }
}

=== FILE: text.dfy ===
/**
 * The Python string operations the bot relies on, with their Python meaning:
 * `s.strip()`, `s.split(sep)`, `s.split()`, `sep.join(parts)`, `p in s`,
 * `s.startswith(p)` and clamped slices. Whitespace is Python's `str.isspace`
 * restricted to ASCII.
 */
module Text {
  import opened Wrappers

  /** ASCII whitespace as `str.isspace` sees it: space, \t \n \v \f \r and the separators \x1c-\x1f. */
  predicate IsSpace(c: char) {
    c == ' ' || ('\t' <= c <= '\r') || ('\U{1C}' <= c <= '\U{1F}')
  }

  predicate NoSpace(s: string) {
    forall i :: 0 <= i < |s| ==> !IsSpace(s[i])
  }

  predicate AllSpace(s: string) {
    forall i :: 0 <= i < |s| ==> IsSpace(s[i])
  }

  /** What `str.strip()` can return: no whitespace at either end. */
  predicate Stripped(s: string) {
    s == [] || (!IsSpace(s[0]) && !IsSpace(s[|s| - 1]))
  }

  /** `s` without its leading whitespace; `TrimStartIsSuffix` shows it is a suffix of `s`. */
  function TrimStart(s: string): (r: string)
    ensures |r| <= |s|
    ensures AllSpace(s[..|s| - |r|])
    ensures r == [] || (!IsSpace(r[0]) && r[0] == s[|s| - |r|])
  {
    if s != [] && IsSpace(s[0]) then TrimStart(s[1..]) else s
  }

  lemma {:induction false} TrimStartIsSuffix(s: string)
    ensures TrimStart(s) == s[|s| - |TrimStart(s)|..]
    decreases |s|
  {
    if s != [] && IsSpace(s[0]) {
      TrimStartIsSuffix(s[1..]);
      assert s[1..][|s| - 1 - |TrimStart(s)|..] == s[|s| - |TrimStart(s)|..];
    }
  }

  function TrimEnd(s: string): (r: string)
    ensures |r| <= |s| && r == s[..|r|]
    ensures AllSpace(s[|r|..])
    ensures r == [] || !IsSpace(r[|r| - 1])
  {
    if s != [] && IsSpace(s[|s| - 1]) then
      var r := TrimEnd(s[..|s| - 1]);
      assert forall i :: |r| <= i < |s| - 1 ==> s[i] == s[..|s| - 1][|r|..][i - |r|];
      r
    else s
  }

  /** Python's `s.strip()`. */
  function Strip(s: string): (r: string)
    ensures Stripped(r)
    ensures Stripped(s) ==> r == s
    ensures r == [] <==> AllSpace(s)
  {
    if Stripped(s) then s
    else
      var t := TrimStart(s);
      assert TrimEnd(t) == [] ==> AllSpace(s) by {
        if TrimEnd(t) == [] {
          assert t[0..] == t;
          assert t == [];
          assert s[..|s|] == s;
        }
      }
      TrimEnd(t)
  }

  /** `p` occurs in `s` starting at index `i`. */
  predicate IsAt(s: string, p: string, i: int) {
    0 <= i && i + |p| <= |s| && forall k :: 0 <= k < |p| ==> s[i + k] == p[k]
  }

  /** Python's `p in s`. */
  predicate Contains(s: string, p: string) {
    exists i | 0 <= i <= |s| :: IsAt(s, p, i)
  }

  /** Python's `s.startswith(p)`. */
  predicate StartsWith(s: string, p: string) {
    IsAt(s, p, 0)
  }

  function IndexFrom(s: string, p: string, k: nat): (r: Option<nat>)
    requires |p| > 0
    ensures r.Some? ==> k <= r.value && IsAt(s, p, r.value)
    ensures forall j :: k <= j && (r.None? || j < r.value) ==> !IsAt(s, p, j)
    decreases |s| - k
  {
    if k + |p| > |s| then None
    else if IsAt(s, p, k) then Some(k)
    else IndexFrom(s, p, k + 1)
  }

  /** The leftmost occurrence of a non-empty `p` in `s`, as `str.find` reports it. */
  function IndexOf(s: string, p: string): (r: Option<nat>)
    requires |p| > 0
    ensures r.Some? ==> IsAt(s, p, r.value) && forall j :: 0 <= j < r.value ==> !IsAt(s, p, j)
    ensures r.None? <==> !Contains(s, p)
  {
    IndexFrom(s, p, 0)
  }

  lemma PrefixKeepsOccurrence(s: string, k: nat, p: string, j: int)
    requires k <= |s|
    requires IsAt(s[..k], p, j)
    ensures IsAt(s, p, j)
  {
    assert s[..k][j..j + |p|] == s[j..j + |p|];
  }

  /**
   * Python's `s.split(sep)` for a non-empty separator: the pieces between the
   * non-overlapping occurrences of `sep`, found from left to right.
   */
  function Split(s: string, sep: string): (parts: seq<string>)
    requires |sep| > 0
    ensures |parts| >= 1
    ensures forall i :: 0 <= i < |parts| ==> !Contains(parts[i], sep)
    decreases |s|
  {
    match IndexOf(s, sep)
    case None => [s]
    case Some(i) =>
      assert !Contains(s[..i], sep) by {
        forall j | 0 <= j <= i && IsAt(s[..i], sep, j) ensures false {
          PrefixKeepsOccurrence(s, i, sep, j);
        }
      }
      [s[..i]] + Split(s[i + |sep|..], sep)
  }

  /** Python's `sep.join(parts)`. */
  function Join(parts: seq<string>, sep: string): string {
    if |parts| == 0 then []
    else if |parts| == 1 then parts[0]
    else parts[0] + sep + Join(parts[1..], sep)
  }

  /** Joining the pieces of a split with the same separator gives back the string. */
  lemma {:induction false} SplitJoin(s: string, sep: string)
    requires |sep| > 0
    ensures Join(Split(s, sep), sep) == s
    decreases |s|
  {
    match IndexOf(s, sep)
    case None =>
    case Some(i) =>
      var rest := s[i + |sep|..];
      var tail := Split(rest, sep);
      assert Split(s, sep) == [s[..i]] + tail;
      SplitJoin(rest, sep);
      JoinCons(s[..i], tail, sep);
      assert s == s[..i] + sep + rest by {
        assert s[i..i + |sep|] == sep;
        assert s == s[..i] + s[i..i + |sep|] + s[i + |sep|..];
      }
  }

  lemma JoinCons(a: string, tail: seq<string>, sep: string)
    requires |tail| >= 1
    ensures Join([a] + tail, sep) == a + sep + Join(tail, sep)
  {
    assert ([a] + tail)[1..] == tail;
  }

  /** A string without the separator splits into itself alone. */
  lemma SplitWithout(s: string, sep: string)
    requires |sep| > 0
    requires !Contains(s, sep)
    ensures Split(s, sep) == [s]
  {
  }

  /** When the first occurrence of `sep` in `a + sep + b` is the one after `a`, `a` is the first piece. */
  lemma SplitAtFirst(a: string, sep: string, b: string)
    requires |sep| > 0
    requires forall j :: 0 <= j < |a| ==> !IsAt(a + sep + b, sep, j)
    ensures Split(a + sep + b, sep) == [a] + Split(b, sep)
  {
    var s := a + sep + b;
    assert IsAt(s, sep, |a|) by {
      assert s[|a|..|a| + |sep|] == sep;
    }
    assert IndexOf(s, sep) == Some(|a|);
    assert s[..|a|] == a;
    assert s[|a| + |sep|..] == b;
  }

  /** For a one-character separator, `Contains` is membership of that character. */
  lemma ContainsChar(s: string, c: char)
    ensures Contains(s, [c]) <==> c in s
  {
    if c in s {
      var i :| 0 <= i < |s| && s[i] == c;
      assert IsAt(s, [c], i);
    }
    if Contains(s, [c]) {
      var i :| 0 <= i <= |s| && IsAt(s, [c], i);
      assert s[i + 0] == [c][0];
    }
  }

  /** Splitting on a one-character separator undoes a join of pieces that do not hold it. */
  lemma {:induction false} JoinSplit(parts: seq<string>, sep: string)
    requires |sep| == 1
    requires |parts| >= 1
    requires forall i :: 0 <= i < |parts| ==> sep[0] !in parts[i]
    ensures Split(Join(parts, sep), sep) == parts
    decreases |parts|
  {
    assert sep == [sep[0]];
    if |parts| == 1 {
      ContainsChar(parts[0], sep[0]);
      SplitWithout(parts[0], sep);
    } else {
      var rest := Join(parts[1..], sep);
      var s := parts[0] + sep + rest;
      forall j | 0 <= j < |parts[0]| ensures !IsAt(s, sep, j) {
        assert s[j + 0] == parts[0][j] && sep[0] !in parts[0];
      }
      JoinCons(parts[0], parts[1..], sep);
      assert parts == [parts[0]] + parts[1..];
      assert Join(parts, sep) == s;
      SplitAtFirst(parts[0], sep, rest);
      JoinSplit(parts[1..], sep);
    }
  }

  /** The longest prefix of `s` without whitespace. */
  function TakeWord(s: string): (w: string)
    ensures |w| <= |s| && w == s[..|w|]
    ensures NoSpace(w)
    ensures |w| == |s| || IsSpace(s[|w|])
  {
    if s == [] || IsSpace(s[0]) then [] else [s[0]] + TakeWord(s[1..])
  }

  /** Python's `s.split()`: the maximal runs of non-whitespace, in order. */
  function Words(s: string): (ws: seq<string>)
    ensures forall i :: 0 <= i < |ws| ==> ws[i] != [] && NoSpace(ws[i])
    decreases |s|
  {
    if s == [] then []
    else if IsSpace(s[0]) then Words(s[1..])
    else
      var w := TakeWord(s);
      [w] + Words(s[|w|..])
  }

  lemma {:induction false} TakeWordStops(w: string, x: string)
    requires NoSpace(w)
    requires x == [] || IsSpace(x[0])
    ensures TakeWord(w + x) == w
    decreases |w|
  {
    if w == [] {
      assert w + x == x;
    } else {
      assert (w + x)[1..] == w[1..] + x;
      TakeWordStops(w[1..], x);
      assert w == [w[0]] + w[1..];
    }
  }

  /** A non-empty string without whitespace: what `s.split()` yields. */
  predicate IsWord(w: string) {
    w != [] && NoSpace(w)
  }

  lemma WordsSingle(w: string)
    requires w != [] && NoSpace(w)
    ensures Words(w) == [w]
  {
    TakeWordStops(w, []);
    assert w + [] == w;
    assert w[|w|..] == [];
  }

  lemma WordsCons(w: string, rest: string)
    requires w != [] && NoSpace(w)
    requires rest != [] && !IsSpace(rest[0])
    ensures Words(w + " " + rest) == [w] + Words(rest)
  {
    var s := w + " " + rest;
    assert s == w + (" " + rest);
    TakeWordStops(w, " " + rest);
    assert s[|w|..] == " " + rest;
    assert (" " + rest)[1..] == rest;
    assert Words(" " + rest) == Words(rest);
  }

  lemma WordsJoinStep(ws: seq<string>)
    requires |ws| > 1 && IsWord(ws[0]) && IsWord(ws[1])
    ensures Words(Join(ws, " ")) == [ws[0]] + Words(Join(ws[1..], " "))
  {
    var rest := Join(ws[1..], " ");
    JoinCons(ws[0], ws[1..], " ");
    assert ws == [ws[0]] + ws[1..];
    JoinStartsWith(ws[1..], " ");
    WordsCons(ws[0], rest);
  }

  /** Splitting on whitespace recovers words that were joined with single spaces. */
  lemma {:induction false} WordsJoin(ws: seq<string>)
    requires forall i :: 0 <= i < |ws| ==> IsWord(ws[i])
    ensures Words(Join(ws, " ")) == ws
    decreases |ws|
  {
    if |ws| == 1 {
      WordsSingle(ws[0]);
    } else if |ws| > 1 {
      WordsJoinStep(ws);
      WordsJoin(ws[1..]);
      assert ws == [ws[0]] + ws[1..];
    }
  }

  lemma JoinStartsWith(parts: seq<string>, sep: string)
    requires |parts| >= 1 && parts[0] != []
    ensures Join(parts, sep) != [] && Join(parts, sep)[0] == parts[0][0]
  {
  }

  lemma {:induction false} JoinEndsWith(parts: seq<string>, sep: string)
    requires |parts| >= 1 && parts[|parts| - 1] != []
    ensures var s := Join(parts, sep); s != [] && s[|s| - 1] == parts[|parts| - 1][|parts[|parts| - 1]| - 1]
    decreases |parts|
  {
    if |parts| > 1 {
      JoinEndsWith(parts[1..], sep);
    }
  }

  /** Pieces that begin and end without whitespace join into a string `strip` leaves alone. */
  lemma JoinStripped(parts: seq<string>, sep: string)
    requires |parts| >= 1 && parts[0] != [] && parts[|parts| - 1] != []
    requires !IsSpace(parts[0][0]) && !IsSpace(parts[|parts| - 1][|parts[|parts| - 1]| - 1])
    ensures Stripped(Join(parts, sep))
  {
    JoinStartsWith(parts, sep);
    JoinEndsWith(parts, sep);
  }

  /** A pattern whose first character never appears in `s` does not occur in it. */
  lemma AbsentByFirstChar(s: string, p: string)
    requires p != [] && p[0] !in s
    ensures !Contains(s, p)
  {
    forall i | 0 <= i <= |s| ensures !IsAt(s, p, i) {
      if i < |s| {
        assert s[i + 0] != p[0];
      }
    }
  }

  /** Stripping a trimmed string with a leading space gives back the trimmed string. */
  lemma StripLeadingSpace(t: string)
    requires t != [] && Stripped(t)
    ensures Strip(" " + t) == t
  {
    var s := " " + t;
    assert s[1..] == t;
    assert TrimStart(s) == t;
    assert TrimEnd(t) == t;
  }

  /** Trimming the front of a run of whitespace followed by a trimmed string leaves that string. */
  lemma {:induction false} TrimStartSpaces(pad: string, t: string)
    requires AllSpace(pad)
    requires t != [] && !IsSpace(t[0])
    ensures TrimStart(pad + t) == t
    decreases |pad|
  {
    if pad != [] {
      assert (pad + t)[1..] == pad[1..] + t;
      TrimStartSpaces(pad[1..], t);
    }
  }

  /** Stripping whitespace followed by a trimmed string gives back the trimmed string. */
  lemma StripLeadingSpaces(pad: string, t: string)
    requires AllSpace(pad)
    requires t != [] && Stripped(t)
    ensures Strip(pad + t) == t
  {
    TrimStartSpaces(pad, t);
    assert TrimEnd(t) == t;
  }

  /** Python's `s[n:]`: slicing past the end gives the empty string. */
  function Drop(s: string, n: nat): (r: string)
    ensures |r| == if n <= |s| then |s| - n else 0
    ensures forall i :: 0 <= i < |r| ==> r[i] == s[n + i]
  {
    if n <= |s| then s[n..] else []
  }

  /** Python's `s[1:-1]`: the string without its first and last characters. */
  function Inner(s: string): (r: string)
    ensures |s| >= 2 ==> s == [s[0]] + r + [s[|s| - 1]]
    ensures |s| < 2 ==> r == []
  {
    if |s| < 2 then [] else s[1..|s| - 1]
  }

  /** Python's `s.endswith(p)`. */
  predicate EndsWith(s: string, p: string) {
    IsAt(s, p, |s| - |p|)
  }

  /** Putting `p` in front of the first piece puts it in front of the join. */
  lemma JoinExtendFirst(p: string, x: string, rest: seq<string>, sep: string)
    ensures Join([p + x] + rest, sep) == p + Join([x] + rest, sep)
  {
    if rest != [] {
      JoinCons(p + x, rest, sep);
      JoinCons(x, rest, sep);
    }
  }

  /** Putting `q` after the last piece puts it after the join. */
  lemma {:induction false} JoinExtendLast(xs: seq<string>, z: string, q: string, sep: string)
    ensures Join(xs + [z + q], sep) == Join(xs + [z], sep) + q
    decreases |xs|
  {
    if xs == [] {
      assert xs + [z + q] == [z + q];
      assert xs + [z] == [z];
    } else {
      JoinExtendLast(xs[1..], z, q, sep);
      assert xs + [z + q] == [xs[0]] + (xs[1..] + [z + q]);
      assert xs + [z] == [xs[0]] + (xs[1..] + [z]);
      JoinCons(xs[0], xs[1..] + [z + q], sep);
      JoinCons(xs[0], xs[1..] + [z], sep);
    }
  }
}

=== FILE: user_service.dfy ===
/**
 * User profiles as the user service keeps them: registering, looking up and
 * adding interests, and reading the matchmaking answer of the completion
 * service back into usernames.
 */
module UserService {
  import opened Wrappers
  import opened Text
  import opened Numbers
  import opened Model
  import opened Repository
  import opened Completion

  /** `set(xs)`: the distinct members of a list. */
  function AsSet(xs: seq<string>): (r: set<string>)
    ensures forall x :: x in r <==> x in xs
  {
    set x | x in xs
  }

  /**
   * `register_user`: file a fresh profile under `username`, replacing any earlier
   * one; the interests become a set and the description is trimmed.
   */
  function RegisterUser(s: Store, username: string, interests: seq<string>, description: string): (s': Store)
    ensures username in s'.users && s'.users[username].username == username
    ensures forall x :: x in s'.users[username].interests <==> x in interests
    ensures s'.users[username].description == Strip(description)
    ensures forall k :: k != username ==> (k in s'.users <==> k in s.users)
    ensures forall k :: k in s.users && k != username ==> s'.users[k] == s.users[k]
    ensures WellKeyed(s) ==> WellKeyed(s')
    ensures s'.pastEvents == s.pastEvents && s'.requestLogs == s.requestLogs && s'.rateLimits == s.rateLimits
  {
    SaveUser(s, UserProfile(username, AsSet(interests), Strip(description)))
  }

  /** Registering twice with the same answers leaves the store as registering once. */
  lemma RegisterIdempotent(s: Store, username: string, interests: seq<string>, description: string)
    ensures RegisterUser(RegisterUser(s, username, interests, description), username, interests, description)
         == RegisterUser(s, username, interests, description)
  {
  }

  /** Only the set of interests matters: order and repeats in the list are forgotten. */
  lemma RegisterForgetsOrder(s: Store, username: string, a: seq<string>, b: seq<string>, description: string)
    requires forall x :: x in a <==> x in b
    ensures RegisterUser(s, username, a, description) == RegisterUser(s, username, b, description)
  {
    assert AsSet(a) == AsSet(b);
  }

  /** Surrounding whitespace of the description is never stored. */
  lemma RegisterTrimsDescription(s: Store, username: string, interests: seq<string>, description: string)
    ensures RegisterUser(s, username, interests, Strip(description)) == RegisterUser(s, username, interests, description)
  {
  }

  /** `UserService.get_user`: the stored profile, or an empty one with that username. */
  function GetProfile(s: Store, username: string): (p: UserProfile)
    ensures username in s.users ==> p == s.users[username]
    ensures username !in s.users ==> p == NewProfile(username, {})
    ensures WellKeyed(s) ==> p.username == username
  {
    match GetUser(s, username)
    case Some(p) => p
    case None => NewProfile(username, {})
  }

  /** A registered user is read back with exactly what was registered. */
  lemma RegisterThenGet(s: Store, username: string, interests: seq<string>, description: string)
    ensures GetProfile(RegisterUser(s, username, interests, description), username)
         == UserProfile(username, AsSet(interests), Strip(description))
  {
  }

  /**
   * `add_interest`: the user's profile, or a fresh one, with the given interests
   * added, saved under the profile's own username.
   */
  function AddInterest(s: Store, username: string, interests: seq<string>): (s': Store)
    ensures WellKeyed(s) ==> username in s'.users
    ensures WellKeyed(s) ==> s'.users[username].interests == GetProfile(s, username).interests + AsSet(interests)
    ensures WellKeyed(s) ==> s'.users[username].description == GetProfile(s, username).description
    ensures WellKeyed(s) ==> WellKeyed(s')
    ensures WellKeyed(s) ==> forall k :: k in s.users && k != username ==> k in s'.users && s'.users[k] == s.users[k]
    ensures s'.pastEvents == s.pastEvents && s'.requestLogs == s.requestLogs && s'.rateLimits == s.rateLimits
  {
    var user := GetProfile(s, username);
    SaveUser(s, user.(interests := user.interests + AsSet(interests)))
  }

  /** Adding the same interests again changes nothing. */
  lemma AddInterestIdempotent(s: Store, username: string, interests: seq<string>)
    requires WellKeyed(s)
    ensures AddInterest(AddInterest(s, username, interests), username, interests) == AddInterest(s, username, interests)
  {
    var s1 := AddInterest(s, username, interests);
    var s2 := AddInterest(s1, username, interests);
    assert s2.users[username] == s1.users[username];
    assert s2.users == s1.users;
  }

  /** Adding interests never loses one: the stored set only grows. */
  lemma AddInterestKeepsOld(s: Store, username: string, interests: seq<string>, x: string)
    requires WellKeyed(s) && username in s.users && x in s.users[username].interests
    ensures x in AddInterest(s, username, interests).users[username].interests
  {
  }

  /** Adding interests to a registered user keeps the description and unites the interests. */
  lemma RegisterThenAdd(s: Store, username: string, first: seq<string>, description: string, more: seq<string>)
    requires WellKeyed(s)
    ensures var s' := AddInterest(RegisterUser(s, username, first, description), username, more);
      s'.users[username] == UserProfile(username, AsSet(first + more), Strip(description))
  {
    var s1 := RegisterUser(s, username, first, description);
    assert AsSet(first) + AsSet(more) == AsSet(first + more);
    assert AddInterest(s1, username, more).users[username].username == username;
  }

  // ---------------------------------------------------------------- matches

  const UserLinePrefix := "- User"
  const MatchErrorMarker := "Error"

  /** What one line of the matchmaking answer contributes. `Abort` is an exception that ends the parse. */
  datatype LineVerdict = Skip | Match(username: string) | Abort

  /** `name` is the username of one of the candidates. */
  predicate IsCandidate(name: string, others: seq<UserProfile>) {
    exists i | 0 <= i < |others| :: others[i].username == name
  }

  /**
   * One line: a line starting with "- User" names candidate `n` (counted from 1)
   * by the integer between "User" and the first ':'. A number that is not an
   * integer aborts; one outside 1..|others| is ignored.
   */
  function ReadMatchLine(line: string, others: seq<UserProfile>): (v: LineVerdict)
    ensures !StartsWith(line, UserLinePrefix) ==> v == Skip
    ensures v.Match? ==> IsCandidate(v.username, others)
  {
    if !StartsWith(line, UserLinePrefix) then Skip
    else
      var pieces := Split(Split(line, ":")[0], "User");
      if |pieces| < 2 then Abort
      else
        match ParseInt(Strip(pieces[1]))
        case None => Abort
        case Some(n) => if 0 <= n - 1 < |others| then Match(others[n - 1].username) else Skip
  }

  /** Put one line's verdict in front of what the later lines gave. */
  function Prepend(v: LineVerdict, rest: Option<seq<string>>): Option<seq<string>> {
    match v
    case Abort => None
    case Skip => rest
    case Match(u) => if rest.None? then None else Some([u] + rest.value)
  }

  /** The verdicts in order; `None` when any of them aborts, whatever came before it. */
  function Collect(vs: seq<LineVerdict>): (r: Option<seq<string>>)
    ensures r.Some? ==> |r.value| <= |vs|
    ensures r.Some? ==> forall i :: 0 <= i < |r.value| ==> exists j :: 0 <= j < |vs| && vs[j] == Match(r.value[i])
  {
    if vs == [] then Some([])
    else
      var r := Prepend(vs[0], Collect(vs[1..]));
      assert r.Some? ==> forall i :: 0 <= i < |r.value| ==> exists j :: 0 <= j < |vs| && vs[j] == Match(r.value[i]) by {
        if r.Some? {
          forall i | 0 <= i < |r.value| ensures exists j :: 0 <= j < |vs| && vs[j] == Match(r.value[i]) {
            if vs[0].Match? && i == 0 {
              assert vs[0] == Match(r.value[i]);
            } else {
              var k := if vs[0].Match? then i - 1 else i;
              var j :| 0 <= j < |vs[1..]| && vs[1..][j] == Match(Collect(vs[1..]).value[k]);
              assert vs[j + 1] == Match(r.value[i]);
            }
          }
        }
      }
      r
  }

  function Verdicts(lines: seq<string>, others: seq<UserProfile>): (vs: seq<LineVerdict>)
    ensures |vs| == |lines|
    ensures forall i :: 0 <= i < |lines| ==> vs[i] == ReadMatchLine(lines[i], others)
  {
    seq(|lines|, i requires 0 <= i < |lines| => ReadMatchLine(lines[i], others))
  }

  /** The lines in order; `None` when any line aborts, whatever came before it. */
  function ReadMatchLines(lines: seq<string>, others: seq<UserProfile>): (r: Option<seq<string>>)
    ensures r.Some? ==> |r.value| <= |lines|
    ensures r.Some? ==> forall i :: 0 <= i < |r.value| ==> IsCandidate(r.value[i], others)
  {
    var vs := Verdicts(lines, others);
    var r := Collect(vs);
    assert r.Some? ==> forall i :: 0 <= i < |r.value| ==> IsCandidate(r.value[i], others) by {
      if r.Some? {
        forall i | 0 <= i < |r.value| ensures IsCandidate(r.value[i], others) {
          var j :| 0 <= j < |vs| && vs[j] == Match(r.value[i]);
        }
      }
    }
    r
  }

  /** How many lines start with "- User"; only those can name a match. */
  function UserLineCount(lines: seq<string>): nat {
    if lines == [] then 0
    else (if StartsWith(lines[0], UserLinePrefix) then 1 else 0) + UserLineCount(lines[1..])
  }

  /** Every match comes from its own "- User" line, so there are never more matches than such lines. */
  lemma {:induction false} MatchesAtMostUserLines(lines: seq<string>, others: seq<UserProfile>)
    ensures var r := ReadMatchLines(lines, others);
      r.Some? ==> |r.value| <= UserLineCount(lines)
    decreases |lines|
  {
    if lines != [] {
      var vs := Verdicts(lines, others);
      assert vs[1..] == Verdicts(lines[1..], others);
      MatchesAtMostUserLines(lines[1..], others);
    }
  }

  /**
   * The parsing half of `find_matches`: nothing when the answer mentions "Error" or
   * any line aborts; otherwise the named candidates' usernames in answer order,
   * repeats included and not capped at three.
   */
  function ParseMatches(response: string, others: seq<UserProfile>): (matches: seq<string>)
    ensures Contains(response, MatchErrorMarker) ==> matches == []
    ensures forall i :: 0 <= i < |matches| ==> IsCandidate(matches[i], others)
    ensures |matches| <= |Split(Strip(response), "\n")|
    ensures |matches| <= UserLineCount(Split(Strip(response), "\n"))
  {
    if Contains(response, MatchErrorMarker) then []
    else
      MatchesAtMostUserLines(Split(Strip(response), "\n"), others);
      match ReadMatchLines(Split(Strip(response), "\n"), others)
      case None => []
      case Some(us) => us
  }

  lemma {:induction false} AbortInCollect(vs: seq<LineVerdict>, k: nat)
    requires k < |vs| && vs[k] == Abort
    ensures Collect(vs) == None
    decreases k
  {
    if k > 0 {
      assert vs[1..][k - 1] == vs[k];
      AbortInCollect(vs[1..], k - 1);
    }
  }

  /** One aborting line anywhere, before or after any matches, empties the whole result. */
  lemma AbortEmptiesAll(lines: seq<string>, others: seq<UserProfile>, k: nat)
    requires k < |lines| && ReadMatchLine(lines[k], others) == Abort
    ensures ReadMatchLines(lines, others) == None
  {
    AbortInCollect(Verdicts(lines, others), k);
  }

  /** A line of the answer format `- User <n>: <reason>`. */
  datatype MatchClaim = MatchClaim(number: int, reason: string)

  /** `- User <token>: <reason>`. */
  function UserLine(token: string, reason: string): string {
    UserLinePrefix + " " + token + ": " + reason
  }

  function FormatMatchLine(c: MatchClaim): string {
    UserLine(IntToString(c.number), c.reason)
  }

  function FormatMatches(claims: seq<MatchClaim>): string {
    Join(MatchLines(claims), "\n")
  }

  function MatchLines(claims: seq<MatchClaim>): (lines: seq<string>) {
    seq(|claims|, i requires 0 <= i < |claims| => FormatMatchLine(claims[i]))
  }

  /** The usernames the claims name, in order: numbers outside 1..|others| name nobody. */
  function Named(claims: seq<MatchClaim>, others: seq<UserProfile>): (names: seq<string>)
    ensures |names| <= |claims|
  {
    if claims == [] then []
    else
      var n := claims[0].number;
      (if 1 <= n <= |others| then [others[n - 1].username] else []) + Named(claims[1..], others)
  }

  lemma IntToStringShape(n: int)
    ensures var t := IntToString(n);
      && t != [] && Stripped(t)
      && forall i :: 0 <= i < |t| ==> t[i] == '-' || IsDigit(t[i])
  {
    var t := IntToString(n);
    if n < 0 {
      assert forall i :: 1 <= i < |t| ==> t[i] == NatToString(-n)[i - 1];
    }
  }

  lemma UserLineHead(token: string, reason: string)
    requires ':' !in token
    ensures Split(UserLine(token, reason), ":")[0] == UserLinePrefix + " " + token
  {
    var a := UserLinePrefix + " " + token;
    var line := UserLine(token, reason);
    assert line == a + ":" + (" " + reason);
    forall j | 0 <= j < |a| ensures !IsAt(line, ":", j) {
      assert line[j] == a[j];
      assert ":"[0] == ':';
    }
    SplitAtFirst(a, ":", " " + reason);
  }

  /** "User" does not occur within the two characters of the bullet `- `, so it splits there. */
  lemma SplitAfterBullet(rest: string)
    ensures Split("- " + "User" + rest, "User") == ["- "] + Split(rest, "User")
  {
    var a := "- " + "User" + rest;
    assert a[0] == '-' && a[1] == ' ' && "User"[0] == 'U';
    forall j | 0 <= j < 2 ensures !IsAt(a, "User", j) {
      assert a[j + 0] != "User"[0];
    }
    SplitAtFirst("- ", "User", rest);
  }

  lemma SplitWithoutU(rest: string)
    requires 'U' !in rest
    ensures Split(rest, "User") == [rest]
  {
    AbsentByFirstChar(rest, "User");
    SplitWithout(rest, "User");
  }

  lemma UserLineNumber(token: string)
    requires 'U' !in token
    ensures Split(UserLinePrefix + " " + token, "User") == ["- ", " " + token]
  {
    var rest := " " + token;
    assert UserLinePrefix + " " + token == "- " + "User" + rest;
    SplitAfterBullet(rest);
    SplitWithoutU(rest);
  }

  /** What a line naming `token` as its user number earns. */
  function TokenVerdict(token: string, others: seq<UserProfile>): LineVerdict {
    match ParseInt(token)
    case None => Abort
    case Some(n) => if 1 <= n <= |others| then Match(others[n - 1].username) else Skip
  }

  lemma ReadLineWithToken(line: string, pieces: seq<string>, token: string, others: seq<UserProfile>)
    requires StartsWith(line, UserLinePrefix)
    requires Split(Split(line, ":")[0], "User") == pieces
    requires |pieces| == 2 && Strip(pieces[1]) == token
    ensures ReadMatchLine(line, others) == TokenVerdict(token, others)
  {
  }

  lemma UserLinePieces(token: string, reason: string)
    requires ':' !in token && 'U' !in token
    ensures StartsWith(UserLine(token, reason), UserLinePrefix)
    ensures var pieces := Split(Split(UserLine(token, reason), ":")[0], "User");
      |pieces| == 2 && pieces[1] == " " + token
  {
    assert UserLine(token, reason)[..6] == UserLinePrefix;
    UserLineHead(token, reason);
    UserLineNumber(token);
  }

  /**
   * A line `- User <token>: <reason>` aborts exactly when the token is not an
   * integer, names candidate `n` when it is an integer in 1..|others|, and is
   * skipped otherwise.
   */
  lemma ReadUserLine(token: string, reason: string, others: seq<UserProfile>)
    requires token != [] && Stripped(token) && ':' !in token && 'U' !in token
    ensures ReadMatchLine(UserLine(token, reason), others) == TokenVerdict(token, others)
  {
    UserLinePieces(token, reason);
    StripLeadingSpace(token);
    ReadLineWithToken(UserLine(token, reason), Split(Split(UserLine(token, reason), ":")[0], "User"), token, others);
  }

  /** Writing a claim in the answer format and reading the line back names the claimed candidate, or nobody. */
  lemma MatchLineRoundTrip(c: MatchClaim, others: seq<UserProfile>)
    ensures ReadMatchLine(FormatMatchLine(c), others) == ClaimVerdict(c, others)
  {
    IntToStringShape(c.number);
    ReadUserLine(IntToString(c.number), c.reason, others);
    ParseIntRoundTrip(c.number);
  }

  /** The verdict a formatted claim earns. */
  function ClaimVerdict(c: MatchClaim, others: seq<UserProfile>): LineVerdict {
    if 1 <= c.number <= |others| then Match(others[c.number - 1].username) else Skip
  }

  lemma {:induction false} CollectClaims(vs: seq<LineVerdict>, claims: seq<MatchClaim>, others: seq<UserProfile>)
    requires |vs| == |claims|
    requires forall i :: 0 <= i < |vs| ==> vs[i] == ClaimVerdict(claims[i], others)
    ensures Collect(vs) == Some(Named(claims, others))
    decreases |claims|
  {
    if claims != [] {
      CollectClaims(vs[1..], claims[1..], others);
      if !(1 <= claims[0].number <= |others|) {
        assert [] + Named(claims[1..], others) == Named(claims[1..], others);
      }
    }
  }

  lemma MatchLinesRoundTrip(claims: seq<MatchClaim>, others: seq<UserProfile>)
    ensures ReadMatchLines(MatchLines(claims), others)
         == Some(Named(claims, others))
  {
    var lines := MatchLines(claims);
    var vs := Verdicts(lines, others);
    forall i | 0 <= i < |claims| ensures vs[i] == ClaimVerdict(claims[i], others) {
      MatchLineRoundTrip(claims[i], others);
    }
    CollectClaims(vs, claims, others);
  }

  /** A reason that keeps its line intact and does not end in whitespace. */
  predicate CleanReason(r: string) {
    r != [] && '\n' !in r && !IsSpace(r[|r| - 1])
  }

  /** A formatted claim is one line, starts with '-' and ends where its reason ends. */
  lemma MatchLineShape(c: MatchClaim)
    requires CleanReason(c.reason)
    ensures var line := FormatMatchLine(c);
      && '\n' !in line && line != [] && line[0] == '-'
      && line[|line| - 1] == c.reason[|c.reason| - 1]
  {
    IntToStringShape(c.number);
  }

  lemma MatchResponseStripped(claims: seq<MatchClaim>)
    requires claims != []
    requires forall i :: 0 <= i < |claims| ==> CleanReason(claims[i].reason)
    ensures Stripped(FormatMatches(claims))
  {
    var lines := MatchLines(claims);
    MatchLineShape(claims[0]);
    MatchLineShape(claims[|claims| - 1]);
    JoinStripped(lines, "\n");
  }

  lemma MatchResponseSplit(claims: seq<MatchClaim>)
    requires claims != []
    requires forall i :: 0 <= i < |claims| ==> CleanReason(claims[i].reason)
    ensures Split(FormatMatches(claims), "\n") == MatchLines(claims)
  {
    var lines := MatchLines(claims);
    forall i | 0 <= i < |lines| ensures '\n' !in lines[i] {
      MatchLineShape(claims[i]);
    }
    JoinSplit(lines, "\n");
  }

  lemma EmptyAnswerNoMatches(others: seq<UserProfile>)
    ensures ParseMatches([], others) == []
  {
    assert Split([], "\n") == [[]];
    assert ReadMatchLine([], others) == Skip;
    assert Verdicts([[]], others) == [Skip];
  }

  lemma ParseMatchesOfLines(response: string, lines: seq<string>, others: seq<UserProfile>)
    requires Stripped(response) && !Contains(response, MatchErrorMarker)
    requires Split(response, "\n") == lines
    requires ReadMatchLines(lines, others).Some?
    ensures ParseMatches(response, others) == ReadMatchLines(lines, others).value
  {
    assert Strip(response) == response;
    assert Split(Strip(response), "\n") == lines;
  }

  /**
   * An answer written in the requested format is read back as the usernames it
   * names, in order, with repeats, skipping numbers outside the candidate list.
   */
  lemma ParseMatchesRoundTrip(claims: seq<MatchClaim>, others: seq<UserProfile>)
    requires forall i :: 0 <= i < |claims| ==> CleanReason(claims[i].reason)
    requires !Contains(FormatMatches(claims), MatchErrorMarker)
    ensures ParseMatches(FormatMatches(claims), others) == Named(claims, others)
  {
    if claims == [] {
      assert FormatMatches(claims) == [];
      EmptyAnswerNoMatches(others);
    } else {
      var response := FormatMatches(claims);
      MatchResponseStripped(claims);
      MatchResponseSplit(claims);
      MatchLinesRoundTrip(claims, others);
      ParseMatchesOfLines(response, MatchLines(claims), others);
    }
  }

  // ---------------------------------------------------------- find_matches

  /** What `find_matches` returns, the prompts it sent and any exception the service raised. */
  datatype MatchOutcome = MatchOutcome(matches: seq<string>, prompts: seq<Prompt>, failure: Option<string>)

  function Candidates(others: seq<UserProfile>): (cs: seq<Candidate>)
    ensures |cs| == |others|
    ensures forall i :: 0 <= i < |others| ==>
      cs[i] == Candidate(others[i].interests, DescriptionText(others[i].description))
  {
    seq(|others|, i requires 0 <= i < |others| => Candidate(others[i].interests, DescriptionText(others[i].description)))
  }

  /** The prompt `find_matches` sends: the current user's profile and every candidate's. */
  function MatchingPrompt(current: UserProfile, others: seq<UserProfile>): Prompt {
    MatchPrompt(current.interests, DescriptionText(current.description), Candidates(others))
  }

  /**
   * `find_matches`, given the current user's profile (if any) and the other
   * profiles: no call to the service without both; otherwise one matchmaking
   * prompt and the usernames read from its answer.
   */
  function FindMatches(current: Option<UserProfile>, others: seq<UserProfile>, complete: Prompt -> Reply): (r: MatchOutcome)
    ensures current.None? || others == [] ==> r == MatchOutcome([], [], None)
    ensures current.Some? && others != [] ==> r.prompts == [MatchingPrompt(current.value, others)]
    ensures current.Some? && others != [] && complete(MatchingPrompt(current.value, others)).Text? ==>
      r.failure.None? && r.matches == ParseMatches(complete(MatchingPrompt(current.value, others)).text, others)
    ensures current.Some? && others != [] && complete(MatchingPrompt(current.value, others)).Raised? ==>
      r.failure == Some(complete(MatchingPrompt(current.value, others)).error) && r.matches == []
    ensures forall i :: 0 <= i < |r.matches| ==> IsCandidate(r.matches[i], others)
    ensures r.failure.Some? ==> r.matches == []
  {
    if current.None? || others == [] then MatchOutcome([], [], None)
    else
      var prompt := MatchingPrompt(current.value, others);
      match complete(prompt)
      case Raised(e) => MatchOutcome([], [prompt], Some(e))
      case Text(t) => MatchOutcome(ParseMatches(t, others), [prompt], None)
  }

  /**
   * When the service answers the matchmaking prompt in the requested format,
   * `find_matches` returns the usernames the answer names, in order, and raises nothing.
   */
  lemma FindMatchesOfFormattedAnswer(current: UserProfile, others: seq<UserProfile>, claims: seq<MatchClaim>, complete: Prompt -> Reply)
    requires others != []
    requires complete(MatchingPrompt(current, others)) == Text(FormatMatches(claims))
    requires forall i :: 0 <= i < |claims| ==> CleanReason(claims[i].reason)
    requires !Contains(FormatMatches(claims), MatchErrorMarker)
    ensures FindMatches(Some(current), others, complete) == MatchOutcome(Named(claims, others), [MatchingPrompt(current, others)], None)
  {
    ParseMatchesRoundTrip(claims, others);
  }
}

=== FILE: wrappers.dfy ===
/** Optional values, used wherever the bot returns `None` or a lookup can miss. */
module Wrappers {

  datatype Option<+T> = None | Some(value: T)
}
